=== FILE: README.md ===
# recon_sorted — a Dafny model

This project models `recon_sorted.py`, the DICOManager script that turns a sorted tree of
DICOM patient folders into one saved bundle of reconstructed volumes per patient. The
model covers these parts:

- **Selection.** The script reads the base directory recursively and keeps the entries
  that match the glob `**/*[!.dcm]`. It reads an MRN allowlist from a CSV file and
  drops the header row. The selected patient folders are the parents of the kept entries
  whose parent folder is named on the allowlist.
- **`FileCollect`.** This dataclass splits a folder path into `project` and `mrn` at its
  last `/`. It fills one slot per modality (MR, CT, PET, RTSTRUCT, RTDOSE) with the
  `*.dcm` files of the matching sub-directory; as in glob, `*.dcm` skips names that
  start with `.`. The model also covers its `__iter__`, `__getitem__`/`__setitem__`
  and `__repr__`.
- **`_img_dims`.** Reads the aspect tuple `(*PixelSpacing, SliceThickness)` from the
  first entry of a modality sub-directory. The model keeps the branch structure, which
  can leave `file_to_read` unbound.
- **Per-patient loop.** For each present modality the loop makes a reconstruction call,
  in source order. It re-reads the aspect after each imaging modality and checks the
  contour list before RTSTRUCT. It then builds `pool_dict`, creates the destination
  once, and saves the bundle as `<dest>/<project>_<mrn>`.

Python's exceptions are modelled as values of `Disk.Failure`. The script's observable
effects are modelled as a list of events: reconstruction calls, `makedirs` and saves.
When an exception is raised, the events that came before it stay in place, because the
script undoes nothing.

The environment is a parameter, `Disk.World`, with these fields:

- `isFile`, `isDir` and `pathExists` answer the path tests.
- `listDir` lists a directory, and `walk` gives the recursive listing of a base directory.
- `open` says why `open` refuses a path: it is missing, unreadable or a directory.
- `csv` gives the parsed rows of a CSV file that opens.
- `header` gives the DICOM header of a file that opens.

The `reconstruction` module is not part of this model. Each of its calls becomes a
symbolic `Dispatching.Recon` term, and that term also stands for the call's result.
`list(set(...))` yields the selected folders in an order Python does not fix, so that
order is a parameter `order`. It is constrained to list every selected folder exactly
once.

Modules follow the program's structure:

- `Common`: the `Option` and `Result` types.
- `Text`: `rpartition`, `split`, `join` and decimal text.
- `Paths`: path joining, suffix, basename and the glob patterns.
- `Disk`: the world and the exceptions.
- `FileCollection`: the `FileCollect` dataclass.
- `AspectRead`: `_img_dims`.
- `Selection`: the patient selection.
- `Dispatching`: the modality blocks of one patient.
- `Pipeline`: `pool_dict`, the save, the loop and the script as a whole.

## Model

| member | source | states |
|---|---|---|
| Text.RPartition | recon_sorted.py:94 | `str.rpartition`: head, separator and tail concatenate back to the input. The tail has no separator. Without a separator, head and separator are empty and the tail is the whole string. |
| Text.RPartitionUnique | recon_sorted.py:94 | Any split of `s` as `head + c + tail`, where `tail` has no `c`, is the one `rpartition` returns. |
| Text.Split | recon_sorted.py:129 | `str.split(c)` has one more part than `c` occurs in the input. No part contains `c`, and joining the parts with `c` gives the input back. |
| Text.SplitJoin | recon_sorted.py:76 | Splitting a `c`-join of parts that do not contain `c` gives the parts back. |
| Text.NatToString | recon_sorted.py:76 | `str(n)` for a length is non-empty decimal digits without a leading zero. |
| Text.ParseNatToString | recon_sorted.py:76 | Reading `str(n)` as a decimal number gives `n` back. |
| Text.CanonicalParse | recon_sorted.py:76 | The texts `str` prints for a length are exactly the canonical numerals: non-empty digits without a leading zero. Reading one and printing its value gives the same text back. |
| Paths.PathJoin | recon_sorted.py:95 | `os.path.join(a, b)` ends with `b` and is `b` when `a` is empty. Its last component is `b`, and when `a` has no trailing `/`, everything before that component is `a`. An absolute `b` replaces `a`, and a trailing `/` on `a` is not doubled. |
| Paths.Parent | recon_sorted.py:128 | `rpartition('/')[0]`: the parent, a `/` and the final component give back the path; a path without `/` has the empty parent. |
| Paths.SuffixDcm | recon_sorted.py:42 | `Path.suffix == ".dcm"` holds exactly when the final component is longer than four characters and ends in `.dcm`; the name `.dcm` alone has no suffix. |
| Paths.SecondToLastIsParentName | recon_sorted.py:129 | `p.split('/')[-2]` exists exactly when `p` contains `/`, and then it is the name of the parent folder that `rpartition('/')[0]` gives. |
| Disk.DcmEntries | recon_sorted.py:95-98 | The `*.dcm` matches among a directory's entries, joined onto the directory. Every matching entry appears, and the length is the number of matching entries, which is what `__repr__` prints. The result is empty exactly when nothing matches. |
| Disk.DcmEntriesOnlyMatches | recon_sorted.py:95-98 | Every path the glob returns is a matching entry joined onto the directory. |
| Disk.GlobDcm | recon_sorted.py:95-98 | `glob(join(dir, '*.dcm'))` is non-empty exactly when `dir` is a directory with an entry matching `*.dcm`. |
| FileCollection.Iter | recon_sorted.py:88-90 | `iter(fc)` gives the field names after `path`, `project` and `mrn`: the five modality names, in declaration order. |
| FileCollection.IterCoversModalities | recon_sorted.py:88-90 | Iteration yields every modality's name, and no name twice. |
| FileCollection.Set | recon_sorted.py:84-85 | `fc[name] = v`: reading the slot back gives `v`, and every other field is unchanged. |
| FileCollection.Blank | recon_sorted.py:65-72 | Before `__post_init__` the instance holds the path, and every other field is `None`. |
| FileCollection.Fill | recon_sorted.py:95-98 | After the loop, each visited modality's slot holds the glob of its sub-directory; other slots and the path fields are unchanged. |
| FileCollection.Collect | recon_sorted.py:93-98 | `FileCollect(path)`: `project + "/" + mrn` is the path when it has a `/`; otherwise `project` is empty and `mrn` is the path. Every slot holds the `.dcm` glob of its modality's sub-directory. |
| FileCollection.CollectMrn | recon_sorted.py:94 | The MRN is the final component of the folder path. |
| FileCollection.Repr | recon_sorted.py:75-77 | `repr(fc)` raises TypeError exactly when a slot is still `None`. Otherwise it starts with the MRN (`None` printed as `None`) and a dash, and has four more colons than the MRN text. |
| FileCollection.ReprRoundTrip | recon_sorted.py:75-77 | Splitting the text after `mrn-` at colons gives five canonical numerals, as `str` prints them. Parsing them gives the five sizes in order. Together with `Text.CanonicalParse`, each part is exactly `str(len(slot))`. |
| FileCollection.CollectRepr | recon_sorted.py:75-98 | The repr of a constructed instance never raises, and it has exactly four colons when the path has none. |
| AspectRead.ReadAspect | recon_sorted.py:47-50 | The aspect is the pixel spacings followed by the slice thickness, three values for a two-value spacing. A path `open` refuses raises the matching `OSError`: FileNotFoundError, PermissionError, or IsADirectoryError for a first entry that is a sub-directory. An opened file that is not DICOM raises InvalidDicomError. A header without PixelSpacing raises AttributeError for PixelSpacing, which is looked up first. A header that has PixelSpacing but no SliceThickness raises AttributeError for SliceThickness. |
| AspectRead.ImgDims | recon_sorted.py:37-51 | A `.dcm` file path, a path that is neither file nor directory, and a missing modality sub-directory leave `file_to_read` unbound. An empty sub-directory raises StopIteration. Otherwise the header of its first entry is read. |
| AspectRead.ImgDimsAfterGlob | recon_sorted.py:42-49 | For a patient directory whose modality glob found a `.dcm` file, the read is always reached, so only the header read can raise. |
| Selection.FirstColumn | recon_sorted.py:126 | `[x[0] for x in rows]` raises IndexError exactly when some row is empty; otherwise it gives every row's first cell, in order. |
| Selection.FilterList | recon_sorted.py:125-126 | The allowlist is the first cell of every row after the header, and it raises IndexError exactly when some row, the header included, is empty. |
| Selection.FileTree | recon_sorted.py:123 | An entry of the recursive listing is kept exactly when its last character is none of `.`, `d`, `c`, `m`. |
| Selection.SelectedCons | recon_sorted.py:128-129 | The selected set of a listing is the first entry's parent when that parent is on the allowlist, together with the selection of the rest. |
| Selection.PatientFolders | recon_sorted.py:128-129 | The comprehension raises IndexError exactly when some kept entry has no `/`. Otherwise it yields the parents of the entries whose parent is named on the allowlist. |
| Dispatching.Call | recon_sorted.py:136-152 | The branch for a modality calls that modality's reconstruction on the patient folder; `struct` also gets the loaded contour list. |
| Dispatching.LastImaging | recon_sorted.py:136-144 | The modality whose aspect is kept is an imaging modality with a non-empty slot, and no present imaging modality comes after it in the order MR, CT, PET. There is none exactly when no imaging slot is non-empty. |
| Dispatching.StepFailure | recon_sorted.py:136-152 | A block leaves the state alone after an exception. It raises nothing exactly when its slot is empty or its own work succeeds. |
| Dispatching.DispatchFailure | recon_sorted.py:134-152 | A patient's blocks raise nothing exactly when every present modality's block succeeds: RTSTRUCT has a contour list, and every imaging aspect read succeeds. |
| Dispatching.DispatchCalls | recon_sorted.py:134-152 | Calls are made only for present modalities, on the patient folder, in the order MR, CT, PET, RTSTRUCT, RTDOSE, at most once each. Without an exception, every present modality is called exactly once. |
| Dispatching.DispatchLocals | recon_sorted.py:134-152 | Without an exception, each modality's local holds that modality's reconstruction when its slot is non-empty, and `[]` otherwise. |
| Dispatching.DispatchAspect | recon_sorted.py:136-144 | Without an exception, `aspect` is the one read for the last present of MR, CT, PET. With none of them present, it keeps the value the previous patient left. |
| Dispatching.DispatchNeedsContours | recon_sorted.py:145-147 | A present RTSTRUCT without a contour list raises its NameError before `struct` runs, so only imaging reconstructions were called. |
| Pipeline.PoolDict | recon_sorted.py:153-159 | `pool_dict` raises NameError for `aspect` exactly when it is unbound. Otherwise its keys are the five modality names and `ASPECT`, each holding its local's value. |
| Pipeline.PatientOutcome | recon_sorted.py:131-165 | A patient completes exactly when every present block succeeds, an aspect is bound (its own or an earlier patient's), and a project was given. A missing aspect raises NameError, and a missing project raises TypeError. |
| Pipeline.PatientEvents | recon_sorted.py:131-165 | A patient's events are its reconstruction calls, then at most two more events, none of them a call: at most one `makedirs` and at most one save. `pool_dict` is built before the destination check, so the destination is created exactly when it was missing and the blocks ended with `aspect` bound: not on the unbound-aspect NameError, but before the missing-project TypeError. Every saved bundle has the six keys. |
| Pipeline.PatientBundle | recon_sorted.py:153-165 | A completed patient saves last, to `<dest>/<project>_<mrn>`, a bundle with the six keys. Each modality's key holds its reconstruction or `[]`. `ASPECT` holds the aspect read for this patient, or the one carried over. |
| Pipeline.SavesFiles | recon_sorted.py:163-165 | A file is among the recorded saves exactly when some event saved it. |
| Pipeline.LoopSaves | recon_sorted.py:131-165 | If each patient saves exactly one file when it completes and none when it raises, the loop saves one file per folder, in order, up to the first exception. The loop raises nothing exactly when every folder was saved. |
| Pipeline.LoopAppend | recon_sorted.py:131-165 | Nothing is undone: once a run of folders completes, continuing through further folders keeps all of its events and starts from the state it left. |
| Pipeline.LoopStopsAt | recon_sorted.py:131-165 | A loop that raises stopped at some folder `k`. The folders before `k` completed, the body raised on folder `k`, and the events are those of the completed folders followed by the failing body's own. |
| Pipeline.LoopAlwaysFails | recon_sorted.py:131-165 | If every patient raises before saving, a non-empty loop raises and saves nothing. |
| Pipeline.LoopEffects | recon_sorted.py:160-161 | Over the whole loop, `makedirs` happens at most once, and never when the destination already existed. Every saved bundle has the six keys. |
| Pipeline.AspectCarriesOver | recon_sorted.py:134-158 | A patient without MR, CT or PET files saves the same `ASPECT` as the patient before it: `aspect` is not reset between iterations. |
| Pipeline.DestDir | recon_sorted.py:120-121 | A missing or empty `-d` falls back to the base directory; the destination is never empty. |
| Pipeline.Folders | recon_sorted.py:117-129 | A missing or empty base directory raises NameError. A missing CSV option raises TypeError. A CSV path `open` refuses raises the matching `OSError`: FileNotFoundError, PermissionError or IsADirectoryError. An empty CSV row raises IndexError. Otherwise the result succeeds exactly when every kept entry contains a `/` (IndexError otherwise), and then it is the selection of the filtered listing by the allowlist. |
| Pipeline.FoldersSelect | recon_sorted.py:123-129 | A folder is selected exactly when it is the parent of a listed entry, not ending in `.`, `d`, `c` or `m`, whose parent is named on the allowlist. |
| Pipeline.RunSaves | recon_sorted.py:117-165 | A run that raises nothing saves one bundle per selected folder, in the iteration order, named `<dest>/<project>_<mrn>`; this needs a project name whenever any folder is selected. The destination is created once if it was missing and some folder was selected, and not at all if it existed. |
| Pipeline.RunFirstWithoutImaging | recon_sorted.py:131-158 | `aspect` starts unbound: when the first folder's blocks raise nothing but it has no MR, CT or PET files, the run raises NameError at `pool_dict`, before creating the destination or saving anything. |
| Pipeline.RunWithoutProject | recon_sorted.py:153-165 | Without `-p`, a first folder whose blocks raise nothing and bind `aspect` makes the run create a missing destination and then raise TypeError, saving nothing. |
| Pipeline.RunWithoutBase | recon_sorted.py:117-118 | Without a base directory, the script raises NameError before doing anything. |

## Left out

- Command-line parsing (optparse, lines 101-115) is not modelled. The options arrive as a record of optional strings.
- `expanduser` and path normalisation are not modelled. Paths are plain strings, so a trailing `/` on the destination is kept as written.
- Hidden files and directories in the recursive glob are not modelled. The recursive listing, `World.walk`, is given as a parameter and is assumed to hold only what `**` reaches.
- Glob metacharacters inside the base or patient paths are not modelled. Paths are matched literally.
- The functions of the `reconstruction` module are not part of this model. Neither are `json.load` and the opening of the contour-list file. They are treated as total and uninterpreted, so the exceptions they might raise are not modelled.
- `np.save` and `os.makedirs` are treated as never failing. A destination that exists as a plain file is not modelled, and neither is the `.npy` extension `np.save` appends.
- Errors while reading an opened CSV file (a decoding error, or `csv.Error` on a malformed line) are not modelled. `World.csv` gives the rows of any file that opens.
- The tqdm progress bar is not modelled. It has no effect on the result.
- The iteration order of `list(set(...))` is not modelled. It is a parameter that lists each selected folder exactly once.
- FileCollection.Set: only the five modality slots are modelled as settable. `__getitem__` and `__setitem__` with any other attribute name, which go through `self.__dict__`, are not modelled.
- The contour list is checked only when a patient has RTSTRUCT files, as the code does (line 145-147). A reading in which `-j` is always required is not modelled.

=== FILE: common.dfy ===
/** Failure-carrying datatypes shared by every module of the model. */
module Common {

  /** A value that may be missing: Python's `None` versus a present value. */
  datatype Option<+T> = None | Some(value: T)

  /** The outcome of a step that can raise: a value, or the exception it raised. */
  datatype Result<+T, +E> = Ok(value: T) | Err(error: E)
}

=== FILE: disk.dfy ===
/**
 * What the script sees of the outside world: the filesystem queries it
 * makes, the CSV and DICOM readers, and the exceptions it can raise.
 * Every external operation is a field of `World`, so the model is
 * universally quantified over their behaviour.
 */
module Disk {
  import opened Common
  import opened Paths

  /** A DICOM Decimal String value (an entry of PixelSpacing, or SliceThickness), kept as text. */
  datatype Spacing = Spacing(text: string)

  /** What `_img_dims` returns: the PixelSpacing entries followed by SliceThickness. */
  type Aspect = seq<Spacing>

  /**
   * The two attributes of a header read with `stop_before_pixels=True`;
   * an attribute the file does not carry is `None`.
   */
  datatype Header = Header(pixelSpacing: Option<seq<Spacing>>, sliceThickness: Option<Spacing>)

  /** The exceptions the script can end with. */
  datatype Failure =
    | NameError(message: string)
    | UnboundLocalError(variable: string)
    | StopIteration
    | IndexError
    | TypeError
    | FileNotFoundError(file: string)
    | PermissionError(file: string)
    | IsADirectoryError(file: string)
    | InvalidDicomError(file: string)
    | AttributeError(attribute: string)

  /** Why `open` refuses a path: it is missing, it may not be read, or it is a directory. */
  datatype OpenError = NotFound | NoPermission | IsDirectory

  /** The `OSError` subclass `open(file)` raises for `e`. */
  function OpenFailure(e: OpenError, file: string): Failure
  {
    match e
    case NotFound => FileNotFoundError(file)
    case NoPermission => PermissionError(file)
    case IsDirectory => IsADirectoryError(file)
  }

  /** `f` is one of the exceptions `open` raises. */
  predicate IsOpenFailure(f: Failure)
  {
    f.FileNotFoundError? || f.PermissionError? || f.IsADirectoryError?
  }

  /**
   * The filesystem and readers:
   * - `isFile`, `isDir`, `pathExists`: `Path.is_file`, `Path.is_dir`, `os.path.exists`;
   * - `listDir`: the entry names of a directory in iteration order (`os.scandir`, `Path.iterdir`);
   * - `walk`: every non-hidden path below a directory, at any depth, as full
   *   paths in the order a recursive glob yields them;
   * - `open`: the reason `open(path)` raises, `None` when the path opens
   *   (`IsDirectory` for a directory, which `dcmread` opens too);
   * - `csv`: the rows `csv.reader` yields for a file that opens;
   * - `header`: `pydicom.dcmread` of a file that opens, `None` when it is not DICOM.
   */
  datatype World = World(
    isFile: string -> bool,
    isDir: string -> bool,
    pathExists: string -> bool,
    listDir: string -> seq<string>,
    walk: string -> seq<string>,
    open: string -> Option<OpenError>,
    csv: string -> seq<seq<string>>,
    header: string -> Option<Header>)

  /** How many of `names` the pattern `*.dcm` matches. */
  function MatchCount(names: seq<string>): nat
  {
    if names == [] then 0
    else (if MatchesDcmGlob(names[0]) then 1 else 0) + MatchCount(names[1..])
  }

  /** The entries of `names` that the pattern `*.dcm` matches, joined onto `dir`, in order. */
  function DcmEntries(dir: string, names: seq<string>): (r: seq<string>)
    ensures |r| == MatchCount(names) <= |names|
    ensures r == [] <==> forall n :: n in names ==> !MatchesDcmGlob(n)
    ensures forall n :: n in names && MatchesDcmGlob(n) ==> PathJoin(dir, n) in r
  {
    if names == [] then []
    else
      var rest := DcmEntries(dir, names[1..]);
      assert forall n :: n in names <==> n == names[0] || n in names[1..];
      assert MatchCount(names) == (if MatchesDcmGlob(names[0]) then 1 else 0) + MatchCount(names[1..]);
      if MatchesDcmGlob(names[0]) then [PathJoin(dir, names[0])] + rest else rest
  }

  /** Every path the glob returns is a matching entry joined onto the directory. */
  lemma {:induction false} DcmEntriesOnlyMatches(dir: string, names: seq<string>)
    ensures forall x :: x in DcmEntries(dir, names) ==>
              exists n :: n in names && MatchesDcmGlob(n) && x == PathJoin(dir, n)
    decreases |names|
  {
    if names != [] {
      DcmEntriesOnlyMatches(dir, names[1..]);
      forall x | x in DcmEntries(dir, names)
        ensures exists n :: n in names && MatchesDcmGlob(n) && x == PathJoin(dir, n)
      {
        if x in DcmEntries(dir, names[1..]) {
          var n :| n in names[1..] && MatchesDcmGlob(n) && x == PathJoin(dir, n);
          assert n in names;
        } else {
          assert x == PathJoin(dir, names[0]) && MatchesDcmGlob(names[0]);
        }
      }
    }
  }

  /** `glob(os.path.join(dir, '*.dcm'))`: nothing when `dir` is not a directory. */
  function GlobDcm(w: World, dir: string): (r: seq<string>)
    ensures r != [] <==> w.isDir(dir) && exists n :: n in w.listDir(dir) && MatchesDcmGlob(n)
  {
    if w.isDir(dir) then DcmEntries(dir, w.listDir(dir)) else []
  }
}

=== FILE: dispatch.dfy ===
/**
 * The per-patient dispatch of recon_sorted.py:134-152: one reconstruction
 * call per present modality, in the order MR, CT, PET, RTSTRUCT, RTDOSE,
 * with the aspect re-read after each imaging modality.
 *
 * The `reconstruction` module is not part of this model. Its functions are
 * treated as uninterpreted: a call is recorded as a `Recon` term, and that
 * term also stands for the value the call returns.
 */
module Dispatching {
  import opened Common
  import opened Disk
  import opened FileCollection
  import opened AspectRead

  /** Python truthiness of an option value: given and not empty. */
  predicate Truthy(o: Option<string>)
  {
    o.Some? && o.value != ""
  }

  /** The message raised when RTSTRUCT files exist but no contour list was given. */
  const ContoursMissing: string := "A .csv of contours must be specified with -l"

  /** `json.load` of the contour-list file, passed unread to `reconstruction.struct`. */
  datatype Contours = Contours(file: string)

  /** A call into the `reconstruction` module, standing also for its result. */
  datatype Recon =
    | Mri(dir: string)
    | Ct(dir: string)
    | Pet(dir: string)
    | Struct(dir: string, contours: Contours)
    | Dose(dir: string)

  /** The modality a reconstruction call serves. */
  function Kind(r: Recon): Modality
  {
    match r
    case Mri(_) => MR
    case Ct(_) => CT
    case Pet(_) => PET
    case Struct(_, _) => RTSTRUCT
    case Dose(_) => RTDOSE
  }

  /** MR, CT and PET are the modalities whose branch re-reads the aspect. */
  predicate Imaging(m: Modality)
  {
    m == MR || m == CT || m == PET
  }

  /** What the loop needs besides the patient: the filesystem and the `-j` option. */
  datatype Context = Context(world: World, contourList: Option<string>)

  /** The call the branch for `m` makes on the patient folder `dir`. */
  function Call(ctx: Context, m: Modality, dir: string): (r: Recon)
    requires m == RTSTRUCT ==> Truthy(ctx.contourList)
    ensures Kind(r) == m && r.dir == dir
    ensures m == RTSTRUCT ==> r.contours == Contours(ctx.contourList.value)
  {
    match m
    case MR => Mri(dir)
    case CT => Ct(dir)
    case PET => Pet(dir)
    case RTSTRUCT => Struct(dir, Contours(ctx.contourList.value))
    case RTDOSE => Dose(dir)
  }

  /** A value bound to one of the locals `mr`, `ct`, `pet`, `rts`, `dose`: still `[]`, or a call's result. */
  datatype Value = NoData | Volume(recon: Recon)

  /** The loop body's locals: the five results and `aspect`, which may still be unbound. */
  datatype Locals = Locals(mr: Value, ct: Value, pet: Value, rts: Value, dose: Value, aspect: Option<Aspect>)

  /** The local holding modality `m`'s result. */
  function Slot(l: Locals, m: Modality): Value
  {
    match m
    case MR => l.mr
    case CT => l.ct
    case PET => l.pet
    case RTSTRUCT => l.rts
    case RTDOSE => l.dose
  }

  /** Assign the local for modality `m`. */
  function WithSlot(l: Locals, m: Modality, v: Value): (r: Locals)
    ensures Slot(r, m) == v
    ensures forall m' :: m' != m ==> Slot(r, m') == Slot(l, m')
    ensures r.aspect == l.aspect
  {
    match m
    case MR => l.(mr := v)
    case CT => l.(ct := v)
    case PET => l.(pet := v)
    case RTSTRUCT => l.(rts := v)
    case RTDOSE => l.(dose := v)
  }

  /** The dispatch so far: calls made, locals, and the exception raised, if any. */
  datatype Progress = Progress(calls: seq<Recon>, locals: Locals, failure: Option<Failure>)

  /**
   * One `if patient_group.<m>:` block. Nothing happens once an exception
   * was raised or when the slot is empty. The RTSTRUCT block raises before
   * calling `struct` when no contour list was given; an imaging block
   * calls its reconstruction and then `_img_dims`, which may raise.
   */
  function Step(ctx: Context, fc: FileCollect, p: Progress, m: Modality): Progress
  {
    if p.failure.Some? || !Present(fc, m) then p
    else if m == RTSTRUCT && !Truthy(ctx.contourList) then
      p.(failure := Some(NameError(ContoursMissing)))
    else
      var call := Call(ctx, m, fc.path);
      var next := p.(calls := p.calls + [call], locals := WithSlot(p.locals, m, Volume(call)));
      if Imaging(m) then
        match ImgDims(ctx.world, fc.path, Name(m))
        case Ok(a) => next.(locals := next.locals.(aspect := Some(a)))
        case Err(e) => next.(failure := Some(e))
      else next
  }

  /** Before the first block: every result is `[]`, and `aspect` is what the previous patient left. */
  function Start(aspect: Option<Aspect>): Progress
  {
    Progress([], Locals(NoData, NoData, NoData, NoData, NoData, aspect), None)
  }

  /** The blocks for the modalities `ms`, one after the other. */
  function Blocks(ctx: Context, fc: FileCollect, p: Progress, ms: seq<Modality>): Progress
    decreases |ms|
  {
    if ms == [] then p else Blocks(ctx, fc, Step(ctx, fc, p, ms[0]), ms[1..])
  }

  /** The five blocks in source order: MR, CT, PET, RTSTRUCT, RTDOSE. */
  function Dispatch(ctx: Context, fc: FileCollect, aspect: Option<Aspect>): Progress
  {
    Blocks(ctx, fc, Start(aspect), Modalities)
  }

  /** The block for a present slot raises nothing: RTSTRUCT has its contour list, an imaging read succeeds. */
  predicate StepOk(ctx: Context, fc: FileCollect, m: Modality)
  {
    && (m == RTSTRUCT ==> Truthy(ctx.contourList))
    && (Imaging(m) ==> ImgDims(ctx.world, fc.path, Name(m)).Ok?)
  }

  /** No block raises. */
  predicate DispatchOk(ctx: Context, fc: FileCollect)
  {
    forall m :: Present(fc, m) ==> StepOk(ctx, fc, m)
  }

  /** The last of MR, CT, PET, in that order, whose slot is non-empty. */
  function LastImaging(fc: FileCollect): (r: Option<Modality>)
    ensures r.Some? ==> Imaging(r.value) && Present(fc, r.value)
    ensures r.None? <==> forall m :: Imaging(m) ==> !Present(fc, m)
    ensures r.Some? ==> forall m :: Imaging(m) && Present(fc, m) ==> Rank(m) <= Rank(r.value)
  {
    if Present(fc, PET) then Some(PET)
    else if Present(fc, CT) then Some(CT)
    else if Present(fc, MR) then Some(MR)
    else None
  }

  /** Number of calls serving modality `m`. */
  function CountKind(calls: seq<Recon>, m: Modality): nat
  {
    if calls == [] then 0
    else CountKind(calls[..|calls| - 1], m) + (if Kind(calls[|calls| - 1]) == m then 1 else 0)
  }

  /** `r` is a call on folder `dir`, and a `struct` call gets the loaded contour list. */
  predicate Serves(ctx: Context, dir: string, r: Recon)
  {
    r.dir == dir && (r.Struct? ==> Truthy(ctx.contourList) && r.contours == Contours(ctx.contourList.value))
  }

  lemma ServesIsCall(ctx: Context, dir: string, r: Recon)
    requires Serves(ctx, dir, r)
    ensures Kind(r) == RTSTRUCT ==> Truthy(ctx.contourList)
    ensures r == Call(ctx, Kind(r), dir)
  {
  }

  /** The calls made by the first `k` blocks: present modalities, each on the patient folder, in dispatch order. */
  predicate CallsSoFar(ctx: Context, fc: FileCollect, calls: seq<Recon>, k: nat)
  {
    && (forall i :: 0 <= i < |calls| ==>
          Present(fc, Kind(calls[i])) && Rank(Kind(calls[i])) < k && Serves(ctx, fc.path, calls[i]))
    && (forall i, j :: 0 <= i < j < |calls| ==> Rank(Kind(calls[i])) < Rank(Kind(calls[j])))
  }

  lemma CountKindSnoc(calls: seq<Recon>, c: Recon, m: Modality)
    ensures CountKind(calls + [c], m) == CountKind(calls, m) + (if Kind(c) == m then 1 else 0)
  {
    assert (calls + [c])[..|calls|] == calls;
  }

  /** No call of a modality that ranks at or after every call made so far. */
  lemma {:induction false} CountKindLater(calls: seq<Recon>, m: Modality)
    requires forall i :: 0 <= i < |calls| ==> Rank(Kind(calls[i])) < Rank(m)
    ensures CountKind(calls, m) == 0
  {
    if calls != [] {
      CountKindLater(calls[..|calls| - 1], m);
    }
  }

  /** Calls in strictly increasing dispatch order serve each modality at most once. */
  lemma {:induction false} CountKindAtMostOne(calls: seq<Recon>, m: Modality)
    requires forall i, j :: 0 <= i < j < |calls| ==> Rank(Kind(calls[i])) < Rank(Kind(calls[j]))
    ensures CountKind(calls, m) <= 1
  {
    if calls != [] {
      var init := calls[..|calls| - 1];
      CountKindAtMostOne(init, m);
      if Kind(calls[|calls| - 1]) == m {
        CountKindLater(init, m);
      }
    }
  }

  /** Appending the call of the block at position `k` keeps the calls well formed. */
  lemma AppendCall(ctx: Context, fc: FileCollect, calls: seq<Recon>, c: Recon, k: nat)
    requires CallsSoFar(ctx, fc, calls, k)
    requires Present(fc, Kind(c)) && Rank(Kind(c)) == k && Serves(ctx, fc.path, c)
    ensures CallsSoFar(ctx, fc, calls + [c], k + 1)
    ensures forall m :: CountKind(calls + [c], m) == CountKind(calls, m) + (if m == Kind(c) then 1 else 0)
  {
    var r := calls + [c];
    assert forall i :: 0 <= i < |calls| ==> r[i] == calls[i];
    forall m ensures CountKind(r, m) == CountKind(calls, m) + (if m == Kind(c) then 1 else 0) {
      CountKindSnoc(calls, c, m);
    }
  }

  /** The block runs its call exactly when no exception was raised, the slot is non-empty and RTSTRUCT has its list. */
  predicate Runs(ctx: Context, fc: FileCollect, p: Progress, m: Modality)
  {
    p.failure.None? && Present(fc, m) && (m == RTSTRUCT ==> Truthy(ctx.contourList))
  }

  /** The calls after the block for `m`. */
  function NextCalls(ctx: Context, fc: FileCollect, p: Progress, m: Modality): seq<Recon>
  {
    if Runs(ctx, fc, p, m) then p.calls + [Call(ctx, m, fc.path)] else p.calls
  }

  lemma StepShape(ctx: Context, fc: FileCollect, p: Progress, m: Modality)
    ensures Step(ctx, fc, p, m).calls == NextCalls(ctx, fc, p, m)
    ensures Runs(ctx, fc, p, m) ==>
              Step(ctx, fc, p, m).locals == WithSlot(p.locals, m, Volume(Call(ctx, m, fc.path))).(aspect := Step(ctx, fc, p, m).locals.aspect)
    ensures !Runs(ctx, fc, p, m) ==> Step(ctx, fc, p, m).locals == p.locals
  {
  }

  /** A block appends at most its own call and keeps the calls well formed. */
  lemma NextCallsOk(ctx: Context, fc: FileCollect, p: Progress, m: Modality)
    requires CallsSoFar(ctx, fc, p.calls, Rank(m))
    ensures CallsSoFar(ctx, fc, NextCalls(ctx, fc, p, m), Rank(m) + 1)
    ensures forall m' :: CountKind(NextCalls(ctx, fc, p, m), m') ==
              CountKind(p.calls, m') + (if m' == m && Runs(ctx, fc, p, m) then 1 else 0)
  {
    if Runs(ctx, fc, p, m) {
      AppendCall(ctx, fc, p.calls, Call(ctx, m, fc.path), Rank(m));
    } else {
      CallsSoFarLater(ctx, fc, p.calls, Rank(m));
    }
  }

  /** Calls made by the first `k` blocks are also calls made by the first `k + 1`. */
  lemma CallsSoFarLater(ctx: Context, fc: FileCollect, calls: seq<Recon>, k: nat)
    requires CallsSoFar(ctx, fc, calls, k)
    ensures CallsSoFar(ctx, fc, calls, k + 1)
  {
  }

  /** Every block among the first `k` whose slot is non-empty succeeds. */
  predicate OkBelow(ctx: Context, fc: FileCollect, k: nat)
  {
    forall m :: Rank(m) < k && Present(fc, m) ==> StepOk(ctx, fc, m)
  }

  /** The last present imaging modality among the first `k` blocks. */
  function LastImagingBelow(fc: FileCollect, k: nat): Option<Modality>
  {
    if 3 <= k && Present(fc, PET) then Some(PET)
    else if 2 <= k && Present(fc, CT) then Some(CT)
    else if 1 <= k && Present(fc, MR) then Some(MR)
    else None
  }

  /** The local for `m` after the first `k` blocks: its call's result if its block ran, else `[]`. */
  predicate SlotAfter(ctx: Context, fc: FileCollect, l: Locals, m: Modality, k: nat)
  {
    if Rank(m) < k && Present(fc, m) then
      Slot(l, m).Volume? && Kind(Slot(l, m).recon) == m && Serves(ctx, fc.path, Slot(l, m).recon)
    else
      Slot(l, m) == NoData
  }

  /** `aspect` after the first `k` blocks: read for the last imaging block that ran, else unchanged. */
  predicate AspectAfter(ctx: Context, fc: FileCollect, start: Option<Aspect>, aspect: Option<Aspect>, k: nat)
  {
    match LastImagingBelow(fc, k)
    case None => aspect == start
    case Some(m) => ImgDims(ctx.world, fc.path, Name(m)).Ok? && aspect == Some(ImgDims(ctx.world, fc.path, Name(m)).value)
  }

  /** After the first `k` blocks without failure, each modality among them that is present was called once. */
  predicate CountsAfter(fc: FileCollect, calls: seq<Recon>, k: nat)
  {
    forall m :: CountKind(calls, m) == if Rank(m) < k && Present(fc, m) then 1 else 0
  }

  /** Every local after the first `k` blocks. */
  predicate SlotsAfter(ctx: Context, fc: FileCollect, l: Locals, k: nat)
  {
    forall m :: SlotAfter(ctx, fc, l, m, k)
  }

  /** Once past RTSTRUCT with no contour list, the NameError was raised and only imaging calls ran. */
  predicate ContoursAfter(ctx: Context, fc: FileCollect, p: Progress, k: nat)
  {
    3 < k && OkBelow(ctx, fc, 3) && Present(fc, RTSTRUCT) && !Truthy(ctx.contourList) ==>
      && p.failure == Some(NameError(ContoursMissing))
      && forall i :: 0 <= i < |p.calls| ==> Rank(Kind(p.calls[i])) < 3
  }

  /** What holds after the first `k` blocks. */
  predicate Inv(ctx: Context, fc: FileCollect, start: Option<Aspect>, p: Progress, k: nat)
  {
    && CallsSoFar(ctx, fc, p.calls, k)
    && (p.failure.None? <==> OkBelow(ctx, fc, k))
    && (p.failure.None? ==> CountsAfter(fc, p.calls, k))
    && (p.failure.None? ==> SlotsAfter(ctx, fc, p.locals, k))
    && (p.failure.None? ==> AspectAfter(ctx, fc, start, p.locals.aspect, k))
    && ContoursAfter(ctx, fc, p, k)
  }

  lemma StepFailure(ctx: Context, fc: FileCollect, p: Progress, m: Modality)
    ensures Step(ctx, fc, p, m).failure.None? <==> p.failure.None? && (Present(fc, m) ==> StepOk(ctx, fc, m))
    ensures p.failure.Some? ==> Step(ctx, fc, p, m) == p
  {
  }

  lemma OkBelowNext(ctx: Context, fc: FileCollect, m: Modality)
    ensures OkBelow(ctx, fc, Rank(m) + 1) <==> OkBelow(ctx, fc, Rank(m)) && (Present(fc, m) ==> StepOk(ctx, fc, m))
  {
  }

  lemma StepSlot(ctx: Context, fc: FileCollect, p: Progress, m: Modality, m': Modality)
    requires SlotAfter(ctx, fc, p.locals, m', Rank(m))
    requires Step(ctx, fc, p, m).failure.None?
    ensures SlotAfter(ctx, fc, Step(ctx, fc, p, m).locals, m', Rank(m) + 1)
  {
    StepShape(ctx, fc, p, m);
    var l := Step(ctx, fc, p, m).locals;
    if m' != m {
      assert Rank(m') != Rank(m);
    }
    if Runs(ctx, fc, p, m) {
      var c := Call(ctx, m, fc.path);
      assert Slot(l, m') == Slot(WithSlot(p.locals, m, Volume(c)), m');
      if m' == m {
        assert Serves(ctx, fc.path, c);
      }
    } else {
      assert l == p.locals;
    }
  }

  /** One block keeps the invariant, one modality further on. */
  lemma StepCount(ctx: Context, fc: FileCollect, p: Progress, m: Modality)
    requires CallsSoFar(ctx, fc, p.calls, Rank(m))
    requires CountsAfter(fc, p.calls, Rank(m))
    requires Step(ctx, fc, p, m).failure.None?
    ensures CountsAfter(fc, Step(ctx, fc, p, m).calls, Rank(m) + 1)
  {
    StepShape(ctx, fc, p, m);
    NextCallsOk(ctx, fc, p, m);
    StepFailure(ctx, fc, p, m);
    forall m' ensures Rank(m') <= Rank(m) <==> Rank(m') < Rank(m) || m' == m {
      if Rank(m') == Rank(m) {
        assert Modalities[Rank(m)] == m;
      }
    }
  }

  /** The aspect a block leaves: re-read after an imaging call, unchanged otherwise. */
  lemma StepAspectShape(ctx: Context, fc: FileCollect, p: Progress, m: Modality)
    requires Step(ctx, fc, p, m).failure.None?
    ensures p.failure.None?
    ensures Runs(ctx, fc, p, m) && Imaging(m) ==>
              && ImgDims(ctx.world, fc.path, Name(m)).Ok?
              && Step(ctx, fc, p, m).locals.aspect == Some(ImgDims(ctx.world, fc.path, Name(m)).value)
    ensures !(Runs(ctx, fc, p, m) && Imaging(m)) ==> Step(ctx, fc, p, m).locals.aspect == p.locals.aspect
  {
  }

  /** Taking in the block for `m` makes `m` the last imaging modality exactly when it is a present imaging one. */
  lemma LastImagingNext(fc: FileCollect, m: Modality)
    ensures Imaging(m) && Present(fc, m) ==> LastImagingBelow(fc, Rank(m) + 1) == Some(m)
    ensures !(Imaging(m) && Present(fc, m)) ==> LastImagingBelow(fc, Rank(m) + 1) == LastImagingBelow(fc, Rank(m))
  {
  }

  lemma StepAspect(ctx: Context, fc: FileCollect, start: Option<Aspect>, p: Progress, m: Modality)
    requires AspectAfter(ctx, fc, start, p.locals.aspect, Rank(m))
    requires Step(ctx, fc, p, m).failure.None?
    ensures AspectAfter(ctx, fc, start, Step(ctx, fc, p, m).locals.aspect, Rank(m) + 1)
  {
    StepAspectShape(ctx, fc, p, m);
    LastImagingNext(fc, m);
    var a := Step(ctx, fc, p, m).locals.aspect;
    if Imaging(m) && Present(fc, m) {
      assert Runs(ctx, fc, p, m);
      assert a == Some(ImgDims(ctx.world, fc.path, Name(m)).value);
    } else {
      assert a == p.locals.aspect;
    }
  }

  lemma StepContours(ctx: Context, fc: FileCollect, start: Option<Aspect>, p: Progress, m: Modality)
    requires CallsSoFar(ctx, fc, p.calls, Rank(m))
    requires p.failure.None? <==> OkBelow(ctx, fc, Rank(m))
    requires ContoursAfter(ctx, fc, p, Rank(m))
    ensures ContoursAfter(ctx, fc, Step(ctx, fc, p, m), Rank(m) + 1)
  {
    StepFailure(ctx, fc, p, m);
    if 3 < Rank(m) + 1 && OkBelow(ctx, fc, 3) && Present(fc, RTSTRUCT) && !Truthy(ctx.contourList) && m == RTSTRUCT {
      assert p.failure.None?;
    }
  }

  lemma StepSlots(ctx: Context, fc: FileCollect, p: Progress, m: Modality)
    requires SlotsAfter(ctx, fc, p.locals, Rank(m))
    requires Step(ctx, fc, p, m).failure.None?
    ensures SlotsAfter(ctx, fc, Step(ctx, fc, p, m).locals, Rank(m) + 1)
  {
    var k1 := Rank(m) + 1;
    forall m' ensures SlotAfter(ctx, fc, Step(ctx, fc, p, m).locals, m', k1) {
      StepSlot(ctx, fc, p, m, m');
    }
  }

  lemma StepCallsFailure(ctx: Context, fc: FileCollect, p: Progress, m: Modality)
    requires CallsSoFar(ctx, fc, p.calls, Rank(m))
    requires p.failure.None? <==> OkBelow(ctx, fc, Rank(m))
    ensures CallsSoFar(ctx, fc, Step(ctx, fc, p, m).calls, Rank(m) + 1)
    ensures Step(ctx, fc, p, m).failure.None? <==> OkBelow(ctx, fc, Rank(m) + 1)
  {
    StepShape(ctx, fc, p, m);
    NextCallsOk(ctx, fc, p, m);
    StepFailure(ctx, fc, p, m);
    OkBelowNext(ctx, fc, m);
  }

  /** One block keeps the invariant, one modality further on. */
  lemma StepInv(ctx: Context, fc: FileCollect, start: Option<Aspect>, p: Progress, m: Modality)
    requires Inv(ctx, fc, start, p, Rank(m))
    ensures Inv(ctx, fc, start, Step(ctx, fc, p, m), Rank(m) + 1)
  {
    StepCallsFailure(ctx, fc, p, m);
    StepContours(ctx, fc, start, p, m);
    if Step(ctx, fc, p, m).failure.None? {
      StepFailure(ctx, fc, p, m);
      StepCount(ctx, fc, p, m);
      StepSlots(ctx, fc, p, m);
      StepAspect(ctx, fc, start, p, m);
    }
  }

  /** The remaining blocks keep the invariant up to the end. */
  lemma {:induction false} BlocksInv(ctx: Context, fc: FileCollect, start: Option<Aspect>, p: Progress, k: nat)
    requires k <= |Modalities|
    requires Inv(ctx, fc, start, p, k)
    ensures Inv(ctx, fc, start, Blocks(ctx, fc, p, Modalities[k..]), |Modalities|)
    decreases |Modalities| - k
  {
    if k < |Modalities| {
      var m := Modalities[k];
      assert Rank(m) == k;
      var q := Step(ctx, fc, p, m);
      StepInv(ctx, fc, start, p, m);
      assert Modalities[k..][0] == m && Modalities[k..][1..] == Modalities[k + 1..];
      assert Blocks(ctx, fc, p, Modalities[k..]) == Blocks(ctx, fc, q, Modalities[k + 1..]);
      BlocksInv(ctx, fc, start, q, k + 1);
    }
  }

  lemma DispatchInv(ctx: Context, fc: FileCollect, start: Option<Aspect>)
    ensures Inv(ctx, fc, start, Dispatch(ctx, fc, start), |Modalities|)
  {
    assert Inv(ctx, fc, start, Start(start), 0);
    BlocksInv(ctx, fc, start, Start(start), 0);
  }

  /** The dispatch raises exactly when a present modality's block fails. */
  lemma DispatchFailure(ctx: Context, fc: FileCollect, aspect: Option<Aspect>)
    ensures Dispatch(ctx, fc, aspect).failure.None? <==> DispatchOk(ctx, fc)
  {
    DispatchInv(ctx, fc, aspect);
  }

  /**
   * Reconstruction calls are made only for present modalities, on the
   * patient folder, in the order MR, CT, PET, RTSTRUCT, RTDOSE, and at most
   * once each; without failure, exactly once for every present modality.
   */
  lemma DispatchCalls(ctx: Context, fc: FileCollect, aspect: Option<Aspect>)
    ensures CallsSoFar(ctx, fc, Dispatch(ctx, fc, aspect).calls, |Modalities|)
    ensures forall m :: CountKind(Dispatch(ctx, fc, aspect).calls, m) <= 1
    ensures DispatchOk(ctx, fc) ==>
              forall m :: CountKind(Dispatch(ctx, fc, aspect).calls, m) == if Present(fc, m) then 1 else 0
  {
    var p := Dispatch(ctx, fc, aspect);
    DispatchInv(ctx, fc, aspect);
    forall m ensures CountKind(p.calls, m) <= 1 {
      CountKindAtMostOne(p.calls, m);
    }
  }

  /**
   * Without failure, the local for each modality holds its reconstruction
   * exactly when its slot is non-empty, and `[]` otherwise.
   */
  lemma DispatchLocals(ctx: Context, fc: FileCollect, aspect: Option<Aspect>, m: Modality)
    requires DispatchOk(ctx, fc)
    ensures Present(fc, m) ==> Slot(Dispatch(ctx, fc, aspect).locals, m) == Volume(Call(ctx, m, fc.path))
    ensures !Present(fc, m) ==> Slot(Dispatch(ctx, fc, aspect).locals, m) == NoData
  {
    var p := Dispatch(ctx, fc, aspect);
    DispatchInv(ctx, fc, aspect);
    assert SlotAfter(ctx, fc, p.locals, m, |Modalities|);
    if Present(fc, m) {
      ServesIsCall(ctx, fc.path, Slot(p.locals, m).recon);
    }
  }

  /**
   * Without failure, `aspect` is the one read for the last of MR, CT, PET
   * that is present; with none of them present it keeps its earlier value.
   */
  lemma DispatchAspect(ctx: Context, fc: FileCollect, aspect: Option<Aspect>)
    requires DispatchOk(ctx, fc)
    ensures LastImaging(fc).None? ==> Dispatch(ctx, fc, aspect).locals.aspect == aspect
    ensures LastImaging(fc).Some? ==>
              && ImgDims(ctx.world, fc.path, Name(LastImaging(fc).value)).Ok?
              && Dispatch(ctx, fc, aspect).locals.aspect == Some(ImgDims(ctx.world, fc.path, Name(LastImaging(fc).value)).value)
  {
    DispatchInv(ctx, fc, aspect);
    assert LastImagingBelow(fc, |Modalities|) == LastImaging(fc);
  }

  /**
   * RTSTRUCT without a contour list raises NameError before `struct` is
   * called, so only imaging reconstructions ran for this patient.
   */
  lemma DispatchNeedsContours(ctx: Context, fc: FileCollect, aspect: Option<Aspect>)
    requires forall m :: Imaging(m) && Present(fc, m) ==> StepOk(ctx, fc, m)
    requires Present(fc, RTSTRUCT) && !Truthy(ctx.contourList)
    ensures Dispatch(ctx, fc, aspect).failure == Some(NameError(ContoursMissing))
    ensures forall i :: 0 <= i < |Dispatch(ctx, fc, aspect).calls| ==> Imaging(Kind(Dispatch(ctx, fc, aspect).calls[i]))
  {
    DispatchInv(ctx, fc, aspect);
    assert OkBelow(ctx, fc, 3);
  }
}

=== FILE: file_collect.dfy ===
/**
 * The `FileCollect` dataclass: a patient folder's path, its split into
 * project and MRN, and one slot per modality holding the `.dcm` files of
 * the matching sub-directory.
 */
module FileCollection {
  import opened Common
  import opened Text
  import opened Paths
  import opened Disk

  /** The five modality slots, in declaration order. */
  datatype Modality = MR | CT | PET | RTSTRUCT | RTDOSE

  /** The attribute name of a modality's slot, which is also its sub-directory name. */
  function Name(m: Modality): string
  {
    match m
    case MR => "MR"
    case CT => "CT"
    case PET => "PET"
    case RTSTRUCT => "RTSTRUCT"
    case RTDOSE => "RTDOSE"
  }

  /** The dataclass fields of `FileCollect`, in declaration order. */
  const FieldNames: seq<string> := ["path", "project", "mrn", "MR", "CT", "PET", "RTSTRUCT", "RTDOSE"]

  /** The modalities in the order their slots are declared. */
  const Modalities: seq<Modality> := [MR, CT, PET, RTSTRUCT, RTDOSE]

  /**
   * `iter(FileCollect)`: every field name except the first three, which
   * gives each modality's name once, in declaration order.
   */
  function Iter(): (r: seq<string>)
    ensures r == ["MR", "CT", "PET", "RTSTRUCT", "RTDOSE"]
    ensures |r| == |Modalities|
    ensures forall i :: 0 <= i < |r| ==> r[i] == Name(Modalities[i])
  {
    FieldNames[3..]
  }

  /** The position of a modality in declaration order. */
  function Rank(m: Modality): (r: nat)
    ensures r < |Modalities| && Modalities[r] == m
  {
    match m
    case MR => 0
    case CT => 1
    case PET => 2
    case RTSTRUCT => 3
    case RTDOSE => 4
  }

  /** Iteration visits every modality's name, each once. */
  lemma IterCoversModalities()
    ensures forall m: Modality :: Name(m) in Iter()
    ensures forall i, j :: 0 <= i < j < |Iter()| ==> Iter()[i] != Iter()[j]
  {
    var r := Iter();
    forall m: Modality ensures Name(m) in r {
      assert r[Rank(m)] == Name(m);
    }
  }

  /** The fields of one instance; a slot that was never assigned is `None`. */
  datatype FileCollect = FileCollect(
    path: string,
    project: Option<string>,
    mrn: Option<string>,
    mr: Option<seq<string>>,
    ct: Option<seq<string>>,
    pet: Option<seq<string>>,
    rtstruct: Option<seq<string>>,
    rtdose: Option<seq<string>>)

  /** `fc[Name(m)]`. */
  function Get(fc: FileCollect, m: Modality): Option<seq<string>>
  {
    match m
    case MR => fc.mr
    case CT => fc.ct
    case PET => fc.pet
    case RTSTRUCT => fc.rtstruct
    case RTDOSE => fc.rtdose
  }

  /** `fc[Name(m)] = v`: only that slot changes. */
  function Set(fc: FileCollect, m: Modality, v: Option<seq<string>>): (r: FileCollect)
    ensures Get(r, m) == v
    ensures forall m' :: m' != m ==> Get(r, m') == Get(fc, m')
    ensures r.path == fc.path && r.project == fc.project && r.mrn == fc.mrn
  {
    match m
    case MR => fc.(mr := v)
    case CT => fc.(ct := v)
    case PET => fc.(pet := v)
    case RTSTRUCT => fc.(rtstruct := v)
    case RTDOSE => fc.(rtdose := v)
  }

  /** The instance the generated `__init__` builds before `__post_init__`: every default is `None`. */
  function Blank(path: string): (r: FileCollect)
    ensures r.path == path && r.project.None? && r.mrn.None?
    ensures forall m :: Get(r, m).None?
  {
    FileCollect(path, None, None, None, None, None, None, None)
  }

  /** The `.dcm` files directly inside the modality's sub-directory of `path`. */
  function ModalityFiles(w: World, path: string, m: Modality): seq<string>
  {
    GlobDcm(w, PathJoin(path, Name(m)))
  }

  /** The loop of `__post_init__` over the modalities `ms`: each slot gets its glob. */
  function Fill(fc: FileCollect, w: World, ms: seq<Modality>): (r: FileCollect)
    ensures forall m :: m in ms ==> Get(r, m) == Some(ModalityFiles(w, fc.path, m))
    ensures forall m :: m !in ms ==> Get(r, m) == Get(fc, m)
    ensures r.path == fc.path && r.project == fc.project && r.mrn == fc.mrn
    decreases |ms|
  {
    if ms == [] then fc
    else
      assert forall m :: m in ms <==> m == ms[0] || m in ms[1..];
      Fill(Set(fc, ms[0], Some(ModalityFiles(w, fc.path, ms[0]))), w, ms[1..])
  }

  /** `__post_init__`: split the path at its last `/`, then fill every slot. */
  function PostInit(fc: FileCollect, w: World): FileCollect
  {
    var part := RPartition(fc.path, '/');
    Fill(fc.(project := Some(part.head), mrn := Some(part.tail)), w, Modalities)
  }

  /**
   * `FileCollect(path)`: `project` is everything before the last `/` and
   * `mrn` everything after it, and every slot holds a list.
   */
  function Collect(path: string, w: World): (r: FileCollect)
    ensures r.path == path
    ensures r.project.Some? && r.mrn.Some?
    ensures '/' !in r.mrn.value
    ensures '/' in path ==> r.project.value + "/" + r.mrn.value == path
    ensures '/' !in path ==> r.project.value == "" && r.mrn.value == path
    ensures forall m :: Get(r, m) == Some(ModalityFiles(w, path, m))
  {
    AllModalities();
    var part := RPartition(path, '/');
    var r := PostInit(Blank(path), w);
    assert r.project == Some(part.head) && r.mrn == Some(part.tail);
    r
  }

  /** The MRN is the final component of the path. */
  lemma CollectMrn(path: string, w: World)
    ensures Collect(path, w).mrn == Some(BaseName(path))
  {
  }

  /** Every modality has a slot in the iteration order. */
  lemma AllModalities()
    ensures forall m: Modality :: m in Modalities
  {
    forall m: Modality ensures m in Modalities {
      match m
      case MR => assert Modalities[0] == m;
      case CT => assert Modalities[1] == m;
      case PET => assert Modalities[2] == m;
      case RTSTRUCT => assert Modalities[3] == m;
      case RTDOSE => assert Modalities[4] == m;
    }
  }

  /** Python truthiness of a slot: assigned and non-empty. */
  predicate Present(fc: FileCollect, m: Modality)
  {
    Get(fc, m).Some? && Get(fc, m).value != []
  }

  /** Every slot has been assigned a list. */
  predicate Filled(fc: FileCollect)
  {
    forall m :: m in Modalities ==> Get(fc, m).Some?
  }

  /** The text `f'{self.mrn}'` shows: `None` prints as `None`. */
  function MrnText(fc: FileCollect): string
  {
    match fc.mrn
    case None => "None"
    case Some(s) => s
  }

  /** The slot sizes in iteration order. */
  function Sizes(fc: FileCollect): (r: seq<nat>)
    requires Filled(fc)
    ensures |r| == |Modalities|
  {
    seq(|Modalities|, i requires 0 <= i < |Modalities| => |Get(fc, Modalities[i]).value|)
  }

  /** The decimal text of each slot's size, in iteration order. */
  function SizeTexts(fc: FileCollect): (r: seq<string>)
    requires Filled(fc)
    ensures |r| == |Modalities|
    ensures forall i :: 0 <= i < |r| ==> r[i] == NatToString(Sizes(fc)[i])
  {
    seq(|Modalities|, i requires 0 <= i < |Modalities| => NatToString(Sizes(fc)[i]))
  }

  /**
   * `repr(fc)`: the MRN, a dash, and the five slot sizes joined by colons;
   * `len(None)` raises TypeError when a slot was never assigned.
   */
  function Repr(fc: FileCollect): (r: Result<string, Failure>)
    ensures r.Ok? <==> Filled(fc)
    ensures r.Err? ==> r.error == TypeError
    ensures r.Ok? ==> |r.value| > |MrnText(fc)| && r.value[..|MrnText(fc)| + 1] == MrnText(fc) + "-"
    ensures r.Ok? ==> Count(r.value, ':') == Count(MrnText(fc), ':') + 4
  {
    if !Filled(fc) then Err(TypeError)
    else
      var sizes := SizeTexts(fc);
      forall i | 0 <= i < |sizes| ensures ':' !in sizes[i] {
        NoColonInNumber(Sizes(fc)[i]);
      }
      var text := MrnText(fc) + "-" + Join(sizes, ':');
      assert text[..|MrnText(fc)| + 1] == MrnText(fc) + "-";
      Ok(text)
  }

  /** Read the slot sizes back from the part of a repr after the MRN and the dash. */
  function ParseSizes(s: string): seq<nat>
  {
    var parts := Split(s, ':');
    seq(|parts|, i requires 0 <= i < |parts| => ParseNat(parts[i]))
  }

  /** The text after `mrn-` splits at its colons into the printed sizes. */
  lemma ReprParts(fc: FileCollect)
    requires Filled(fc)
    ensures Repr(fc).Ok?
    ensures Split(Repr(fc).value[|MrnText(fc)| + 1..], ':') == SizeTexts(fc)
  {
    var sizes := SizeTexts(fc);
    forall i | 0 <= i < |sizes| ensures ':' !in sizes[i] {
      NoColonInNumber(Sizes(fc)[i]);
    }
    assert Repr(fc).value[|MrnText(fc)| + 1..] == Join(sizes, ':');
    SplitJoin(sizes, ':');
  }

  /**
   * The repr determines the slot sizes: after `mrn-` come five canonical
   * numerals, as `str` prints them, and parsing them gives the sizes back.
   */
  lemma ReprRoundTrip(fc: FileCollect)
    requires Filled(fc)
    ensures Repr(fc).Ok?
    ensures var parts := Split(Repr(fc).value[|MrnText(fc)| + 1..], ':');
            |parts| == |Modalities| && forall i :: 0 <= i < |parts| ==> Canonical(parts[i])
    ensures ParseSizes(Repr(fc).value[|MrnText(fc)| + 1..]) == Sizes(fc)
  {
    ReprParts(fc);
    var after := Repr(fc).value[|MrnText(fc)| + 1..];
    SizeTextsCanonical(fc);
    SizeTextsParse(fc);
    assert ParseSizes(after) == Sizes(fc);
  }

  /** Each printed size is a canonical numeral. */
  lemma SizeTextsCanonical(fc: FileCollect)
    requires Filled(fc)
    ensures forall i :: 0 <= i < |SizeTexts(fc)| ==> Canonical(SizeTexts(fc)[i])
  {
  }

  /** Reading the printed sizes back gives the sizes. */
  lemma SizeTextsParse(fc: FileCollect)
    requires Filled(fc)
    ensures ParseSizes(Join(SizeTexts(fc), ':')) == Sizes(fc)
  {
    var sizes := SizeTexts(fc);
    forall i | 0 <= i < |sizes| ensures ':' !in sizes[i] {
      NoColonInNumber(Sizes(fc)[i]);
    }
    SplitJoin(sizes, ':');
    forall i | 0 <= i < |sizes| ensures ParseNat(sizes[i]) == Sizes(fc)[i] {
      ParseNatToString(Sizes(fc)[i]);
    }
  }

  /** After construction every slot holds a list. */
  lemma CollectFilled(path: string, w: World)
    ensures Filled(Collect(path, w))
  {
    AllModalities();
  }

  /** A path without `:` gives an MRN without `:`. */
  lemma CollectMrnNoColon(path: string, w: World)
    requires ':' !in path
    ensures ':' !in MrnText(Collect(path, w))
  {
    var fc := Collect(path, w);
    if '/' in path {
      assert path == fc.project.value + "/" + fc.mrn.value;
    }
  }

  /** After construction the repr exists, and it has exactly four colons when the path has none. */
  lemma CollectRepr(path: string, w: World)
    ensures Repr(Collect(path, w)).Ok?
    ensures ':' !in path ==> Count(Repr(Collect(path, w)).value, ':') == 4
  {
    var fc := Collect(path, w);
    CollectFilled(path, w);
    if ':' !in path {
      CollectMrnNoColon(path, w);
      ReprColons(fc);
    }
  }

  /** A filled instance whose MRN text has no colon has a repr with exactly four. */
  lemma ReprColons(fc: FileCollect)
    requires Filled(fc) && ':' !in MrnText(fc)
    ensures Repr(fc).Ok? && Count(Repr(fc).value, ':') == 4
  {
    CountZero(MrnText(fc), ':');
  }
}

=== FILE: img_dims.dfy ===
/**
 * `_img_dims(file_path, modality)`: the aspect tuple read from the header
 * of the first entry of a patient's modality sub-directory.
 */
module AspectRead {
  import opened Common
  import opened Paths
  import opened Disk

  /** The local the function reads from; only the directory branch binds it. */
  const FileToRead: string := "file_to_read"

  /**
   * The header read of recon_sorted.py:49-50: the file is opened and read
   * as DICOM without pixel data, and the aspect is the pixel spacings
   * followed by the slice thickness. A path `open` refuses raises the
   * matching `OSError`; a file that is not DICOM raises InvalidDicomError;
   * a missing attribute raises AttributeError, the spacing being looked up
   * first.
   */
  function ReadAspect(w: World, file: string): (r: Result<Aspect, Failure>)
    ensures w.open(file).Some? ==> r == Err(OpenFailure(w.open(file).value, file))
    ensures w.open(file).None? && w.header(file).None? ==> r == Err(InvalidDicomError(file))
    ensures r.Err? ==> IsOpenFailure(r.error) || r.error.InvalidDicomError? || r.error.AttributeError?
    ensures w.open(file).None? && w.header(file).Some? && w.header(file).value.pixelSpacing.None? ==>
              r == Err(AttributeError("PixelSpacing"))
    ensures (w.open(file).None? && w.header(file).Some? && w.header(file).value.pixelSpacing.Some? &&
             w.header(file).value.sliceThickness.None?) ==> r == Err(AttributeError("SliceThickness"))
    ensures r.Ok? <==>
              && w.open(file).None?
              && w.header(file).Some?
              && w.header(file).value.pixelSpacing.Some?
              && w.header(file).value.sliceThickness.Some?
    ensures r.Ok? ==>
              var h := w.header(file).value;
              && |r.value| == |h.pixelSpacing.value| + 1
              && r.value[..|h.pixelSpacing.value|] == h.pixelSpacing.value
              && r.value[|h.pixelSpacing.value|] == h.sliceThickness.value
    ensures r.Ok? && |w.header(file).value.pixelSpacing.value| == 2 ==> |r.value| == 3
  {
    match w.open(file)
    case Some(e) => Err(OpenFailure(e, file))
    case None =>
      match w.header(file)
      case None => Err(InvalidDicomError(file))
      case Some(h) =>
        match h.pixelSpacing
        case None => Err(AttributeError("PixelSpacing"))
        case Some(spacing) =>
          match h.sliceThickness
          case None => Err(AttributeError("SliceThickness"))
          case Some(thickness) =>
            assert (spacing + [thickness])[..|spacing|] == spacing;
            Ok(spacing + [thickness])
  }

  /** The first branch: a path to a single `.dcm` file, which binds `struct_file` only. */
  predicate IsDcmFile(w: World, filePath: string)
  {
    w.isFile(filePath) && Suffix(filePath) == ".dcm"
  }

  /** The modality's sub-directory of the patient path. */
  function ModalityDir(filePath: string, modality: string): string
  {
    PathJoin(filePath, modality)
  }

  /**
   * The header read is reached with `file_to_read` bound exactly when the
   * path is a directory, not a `.dcm` file, whose modality sub-directory
   * exists and has an entry.
   */
  predicate ReachesRead(w: World, filePath: string, modality: string)
  {
    && !IsDcmFile(w, filePath)
    && w.isDir(filePath)
    && w.isDir(ModalityDir(filePath, modality))
    && w.listDir(ModalityDir(filePath, modality)) != []
  }

  /** The first entry of the modality's sub-directory, in iteration order. */
  function FirstEntry(w: World, filePath: string, modality: string): string
    requires ReachesRead(w, filePath, modality)
  {
    var sub := ModalityDir(filePath, modality);
    PathJoin(sub, w.listDir(sub)[0])
  }

  /**
   * `_img_dims(file_path, modality)`. A `.dcm` file path or a path that is
   * neither file nor directory leaves `file_to_read` unbound; a missing
   * modality sub-directory does too; an empty one makes `next` raise
   * StopIteration.
   */
  function ImgDims(w: World, filePath: string, modality: string): (r: Result<Aspect, Failure>)
    ensures IsDcmFile(w, filePath) ==> r == Err(UnboundLocalError(FileToRead))
    ensures !IsDcmFile(w, filePath) && !w.isDir(filePath) ==> r == Err(UnboundLocalError(FileToRead))
    ensures !IsDcmFile(w, filePath) && w.isDir(filePath) && !w.isDir(ModalityDir(filePath, modality)) ==>
              r == Err(UnboundLocalError(FileToRead))
    ensures r == Err(StopIteration) <==>
              && !IsDcmFile(w, filePath) && w.isDir(filePath)
              && w.isDir(ModalityDir(filePath, modality)) && w.listDir(ModalityDir(filePath, modality)) == []
    ensures ReachesRead(w, filePath, modality) ==> r == ReadAspect(w, FirstEntry(w, filePath, modality))
    ensures r.Ok? ==> ReachesRead(w, filePath, modality)
  {
    if IsDcmFile(w, filePath) then Err(UnboundLocalError(FileToRead))
    else if !w.isDir(filePath) then Err(UnboundLocalError(FileToRead))
    else if !w.isDir(ModalityDir(filePath, modality)) then Err(UnboundLocalError(FileToRead))
    else if w.listDir(ModalityDir(filePath, modality)) == [] then Err(StopIteration)
    else
      var read := ReadAspect(w, FirstEntry(w, filePath, modality));
      assert read != Err(StopIteration);
      read
  }

  /**
   * Where the pipeline calls it, the name binding cannot fail: a patient
   * directory whose modality glob found a `.dcm` file reaches the header
   * read, so only the read itself can raise.
   */
  lemma ImgDimsAfterGlob(w: World, dir: string, modality: string)
    requires w.isDir(dir) && !w.isFile(dir)
    requires GlobDcm(w, PathJoin(dir, modality)) != []
    ensures ReachesRead(w, dir, modality)
    ensures ImgDims(w, dir, modality) == ReadAspect(w, FirstEntry(w, dir, modality))
  {
    var sub := ModalityDir(dir, modality);
    assert w.isDir(sub);
    var n :| n in w.listDir(sub) && MatchesDcmGlob(n);
    assert w.listDir(sub) != [];
    assert !IsDcmFile(w, dir);
    assert ReachesRead(w, dir, modality);
  }
}

=== FILE: paths.dfy ===
/**
 * Path arithmetic of the script: `os.path.join`, `Path(a) / b`,
 * `Path.name`, `Path.suffix`, `p.split('/')[-2]`, and the two glob
 * patterns it uses on single path components.
 *
 * Paths are strings in normal form (no empty and no `.` segments), so
 * `os.path.join` and `pathlib` agree on them.
 */
module Paths {
  import opened Common
  import opened Text

  /** `t` is a suffix of `s`. */
  predicate EndsWith(s: string, t: string)
  {
    |t| <= |s| && s[|s| - |t|..] == t
  }

  /**
   * `os.path.join(a, b)`: an absolute `b` replaces `a`; otherwise a `/` is
   * inserted unless `a` is empty or already ends with one.
   */
  function PathJoin(a: string, b: string): (r: string)
    ensures EndsWith(r, b)
    ensures a == "" ==> r == b
    ensures b != "" && '/' !in b ==> RPartition(r, '/').tail == b
    ensures b != "" && '/' !in b && a != "" && a[|a| - 1] != '/' ==> RPartition(r, '/').head == a
    ensures |b| > 0 && b[0] == '/' ==> r == b
    ensures !(|b| > 0 && b[0] == '/') && a != "" && a[|a| - 1] == '/' ==> r == a + b
  {
    if |b| > 0 && b[0] == '/' then b
    else if a == "" then b
    else if a[|a| - 1] == '/' then
      assert a + b == a[..|a| - 1] + ['/'] + b;
      PartitionAtSlash(a[..|a| - 1], b);
      a + b
    else
      PartitionAtSlash(a, b);
      a + "/" + b
  }

  /** Splitting `head/name` at its last `/` gives back `head` and `name`. */
  lemma PartitionAtSlash(head: string, name: string)
    ensures '/' !in name ==> RPartition(head + "/" + name, '/') == Partition(head, "/", name)
  {
    if '/' !in name {
      RPartitionUnique(head + "/" + name, '/', head, name);
    }
  }

  /** `p.rpartition('/')[2]`: the text after the final `/`, the whole path when it has none. */
  function BaseName(p: string): (r: string)
    ensures '/' !in r
  {
    RPartition(p, '/').tail
  }

  /** `p.rpartition('/')[0]`: everything before the final `/`. */
  function Parent(p: string): (r: string)
    ensures '/' in p ==> r + "/" + BaseName(p) == p
    ensures '/' !in p ==> r == ""
  {
    RPartition(p, '/').head
  }

  /**
   * The suffix of a final component: from its last `.`, provided that dot
   * is neither its first nor its last character.
   */
  function NameSuffix(name: string): string
  {
    match LastIndexOf(name, '.')
    case None => ""
    case Some(i) => if 0 < i < |name| - 1 then name[i..] else ""
  }

  /** `Path(p).suffix`: the suffix of the final component. */
  function Suffix(p: string): string
  {
    NameSuffix(BaseName(p))
  }

  lemma NameSuffixOfDcm(name: string)
    requires |name| > 4 && EndsWith(name, ".dcm")
    ensures NameSuffix(name) == ".dcm"
  {
    var stem := name[..|name| - 4];
    assert name == stem + ['.'] + "dcm";
    LastIndexOfJoin(stem, '.', "dcm");
  }

  lemma NameSuffixIsDcm(name: string)
    requires NameSuffix(name) == ".dcm"
    ensures |name| > 4 && EndsWith(name, ".dcm")
  {
    var i := LastIndexOf(name, '.').value;
    assert name[i..] == ".dcm";
  }

  /** A final component has suffix `.dcm` exactly when it is a non-empty stem followed by `.dcm`. */
  lemma SuffixDcm(p: string)
    ensures Suffix(p) == ".dcm" <==> |BaseName(p)| > 4 && EndsWith(BaseName(p), ".dcm")
  {
    var name := BaseName(p);
    if |name| > 4 && EndsWith(name, ".dcm") {
      NameSuffixOfDcm(name);
    }
    if NameSuffix(name) == ".dcm" {
      NameSuffixIsDcm(name);
    }
  }

  /**
   * The glob pattern `*.dcm` on one directory entry: glob's `*` does not
   * match a leading `.`, so hidden names are never matched.
   */
  predicate MatchesDcmGlob(name: string)
  {
    |name| > 0 && name[0] != '.' && EndsWith(name, ".dcm")
  }

  /**
   * The glob pattern `*[!.dcm]` on a final component: the character class
   * tests only the last character, which must be none of `.`, `d`, `c`, `m`.
   */
  predicate MatchesNotDcmClass(p: string)
  {
    |p| > 0 && p[|p| - 1] !in ".dcm"
  }

  /**
   * `p.split('/')[-2]`: the component before the final one; Python raises
   * IndexError (here `None`) when `p` has no `/`.
   */
  function SecondToLast(p: string): (r: Option<string>)
  {
    var parts := Split(p, '/');
    if |parts| < 2 then None else Some(parts[|parts| - 2])
  }

  /** `split('/')[-2]` is the name of the parent: defined exactly when there is a `/`. */
  lemma SecondToLastIsParentName(p: string)
    ensures SecondToLast(p).Some? <==> '/' in p
    ensures SecondToLast(p).Some? ==> SecondToLast(p).value == BaseName(Parent(p))
  {
    CountZero(p, '/');
    if '/' in p {
      var head := Parent(p);
      SplitSnoc(head, '/', BaseName(p));
      if '/' in head {
        var part := RPartition(head, '/');
        SplitSnoc(part.head, '/', part.tail);
      } else {
        CountZero(head, '/');
      }
    }
  }
}

=== FILE: pipeline.dfy ===
/**
 * The script body of recon_sorted.py:117-165: the option checks, the
 * patient selection, and the loop that reconstructs every selected
 * patient and saves one bundle per patient.
 *
 * Observable effects are recorded as events. An exception ends the
 * script; the events before it stay, as nothing is undone.
 */
module Pipeline {
  import opened Common
  import opened Paths
  import opened Disk
  import opened FileCollection
  import opened AspectRead
  import opened Selection
  import opened Dispatching

  /** A value of the saved dictionary: a reconstruction local, or the aspect tuple. */
  datatype Entry = Data(value: Value) | Dims(aspect: Aspect)

  /** `pool_dict`. */
  type Bundle = map<string, Entry>

  /** The keys of `pool_dict`. */
  const BundleKeys: set<string> := {"MR", "CT", "PET", "RTSTRUCT", "RTDOSE", "ASPECT"}

  /** The message Python gives when `aspect` was never assigned. */
  const AspectUnbound: string := "name 'aspect' is not defined"

  /** The message raised when no base directory was given. */
  const BaseMissing: string := "A sorted project folder must be provided to reconstruct"

  /**
   * Building `pool_dict` from the locals: the five results under their
   * modality names and the aspect under `ASPECT`; an unbound `aspect`
   * raises NameError.
   */
  function PoolDict(l: Locals): (r: Result<Bundle, Failure>)
    ensures r.Ok? <==> l.aspect.Some?
    ensures r.Err? ==> r.error == NameError(AspectUnbound)
    ensures r.Ok? ==> r.value.Keys == BundleKeys
    ensures r.Ok? ==> forall m :: Name(m) in r.value && r.value[Name(m)] == Data(Slot(l, m))
    ensures r.Ok? ==> r.value["ASPECT"] == Dims(l.aspect.value)
  {
    match l.aspect
    case None => Err(NameError(AspectUnbound))
    case Some(a) =>
      Ok(map["MR" := Data(l.mr), "CT" := Data(l.ct), "PET" := Data(l.pet),
             "RTSTRUCT" := Data(l.rts), "RTDOSE" := Data(l.dose), "ASPECT" := Dims(a)])
  }

  /** What the script does that can be observed from outside. */
  datatype Event =
    | Called(recon: Recon)
    | MadeDirs(dir: string)
    | Saved(file: string, bundle: Bundle)

  /** The loop's fixed inputs: filesystem and contour list, destination, and `-p`. */
  datatype Plan = Plan(ctx: Context, dest: string, project: Option<string>)

  /** What one iteration leaves for the next: the module-level `aspect`, and whether the destination exists. */
  datatype State = State(aspect: Option<Aspect>, destExists: bool)

  /** The events so far, the state reached, and the exception that ended the script, if any. */
  datatype Outcome = Outcome(events: seq<Event>, state: State, failure: Option<Failure>)

  /** One `Called` event per reconstruction call, in order. */
  function CallEvents(calls: seq<Recon>): (r: seq<Event>)
    ensures |r| == |calls|
    ensures forall i :: 0 <= i < |r| ==> r[i] == Called(calls[i])
  {
    seq(|calls|, i requires 0 <= i < |calls| => Called(calls[i]))
  }

  /** Where a patient's bundle goes: the project name, `_` and the MRN, under the destination. */
  function Target(plan: Plan, path: string): string
    requires plan.project.Some?
  {
    PathJoin(plan.dest, plan.project.value + "_" + BaseName(path))
  }

  /** The files saved, in order. */
  function Saves(events: seq<Event>): (r: seq<string>)
    ensures |r| <= |events|
  {
    if events == [] then []
    else (if events[0].Saved? then [events[0].file] else []) + Saves(events[1..])
  }

  /** A file is among the saves exactly when some event saved it. */
  lemma {:induction false} SavesFiles(events: seq<Event>)
    ensures forall f :: f in Saves(events) <==> exists i :: 0 <= i < |events| && events[i].Saved? && events[i].file == f
    decreases |events|
  {
    if events != [] {
      SavesFiles(events[1..]);
      forall f | f in Saves(events) ensures exists i :: 0 <= i < |events| && events[i].Saved? && events[i].file == f {
        if events[0].Saved? && f == events[0].file {
          assert events[0].Saved? && events[0].file == f;
        } else {
          assert Saves(events) == (if events[0].Saved? then [events[0].file] else []) + Saves(events[1..]);
          assert f in Saves(events[1..]);
          var i :| 0 <= i < |events[1..]| && events[1..][i].Saved? && events[1..][i].file == f;
          assert events[i + 1] == events[1..][i];
        }
      }
      forall f | exists i :: 0 <= i < |events| && events[i].Saved? && events[i].file == f ensures f in Saves(events) {
        var i :| 0 <= i < |events| && events[i].Saved? && events[i].file == f;
        if i > 0 {
          assert events[1..][i - 1] == events[i];
        }
      }
    }
  }

  /** The `makedirs` calls made. */
  function MadeCount(events: seq<Event>): nat
  {
    if events == [] then 0
    else (if events[0].MadeDirs? then 1 else 0) + MadeCount(events[1..])
  }

  /** Every saved bundle has exactly the six keys. */
  predicate BundlesWellKeyed(events: seq<Event>)
  {
    forall i :: 0 <= i < |events| && events[i].Saved? ==> events[i].bundle.Keys == BundleKeys
  }

  lemma {:induction false} SavesAppend(a: seq<Event>, b: seq<Event>)
    ensures Saves(a + b) == Saves(a) + Saves(b)
    ensures MadeCount(a + b) == MadeCount(a) + MadeCount(b)
  {
    if a == [] {
      assert a + b == b;
    } else {
      assert (a + b)[1..] == a[1..] + b;
      SavesAppend(a[1..], b);
    }
  }

  lemma {:induction false} CallEventsQuiet(calls: seq<Recon>)
    ensures Saves(CallEvents(calls)) == []
    ensures MadeCount(CallEvents(calls)) == 0
    decreases |calls|
  {
    if calls != [] {
      assert CallEvents(calls)[1..] == CallEvents(calls[1..]);
      CallEventsQuiet(calls[1..]);
    }
  }

  /**
   * recon_sorted.py:153-165, once the dispatch `d` is done: build
   * `pool_dict`, create the destination if it does not exist, then save
   * under `project + '_' + mrn`, which raises TypeError when no project
   * was given.
   */
  function Finish(plan: Plan, st: State, mrn: string, d: Progress): Outcome
  {
    var called := CallEvents(d.calls);
    var st1 := st.(aspect := d.locals.aspect);
    if d.failure.Some? then Outcome(called, st1, d.failure)
    else
      match PoolDict(d.locals)
      case Err(e) => Outcome(called, st1, Some(e))
      case Ok(bundle) =>
        var made := if st.destExists then [] else [MadeDirs(plan.dest)];
        var st2 := st1.(destExists := true);
        match plan.project
        case None => Outcome(called + made, st2, Some(TypeError))
        case Some(project) =>
          Outcome(called + made + [Saved(PathJoin(plan.dest, project + "_" + mrn), bundle)], st2, None)
  }

  /** One iteration of the loop at recon_sorted.py:131-165: collect the patient's files, dispatch, finish. */
  function Patient(plan: Plan, st: State, path: string): Outcome
  {
    var fc := Collect(path, plan.ctx.world);
    Finish(plan, st, fc.mrn.value, Dispatch(plan.ctx, fc, st.aspect))
  }

  /** The aspect a patient's bundle carries when its dispatch succeeds. */
  function AspectFor(ctx: Context, fc: FileCollect, earlier: Option<Aspect>): Option<Aspect>
  {
    match LastImaging(fc)
    case None => earlier
    case Some(m) => if ImgDims(ctx.world, fc.path, Name(m)).Ok? then Some(ImgDims(ctx.world, fc.path, Name(m)).value) else None
  }

  /**
   * A patient completes exactly when every present modality's block
   * succeeds, an aspect is bound (read for this patient, or left by an
   * earlier one), and a project name was given. A missing aspect raises
   * NameError and a missing project TypeError, before anything is saved.
   */
  lemma PatientOutcome(plan: Plan, st: State, path: string)
    ensures var fc := Collect(path, plan.ctx.world);
            Patient(plan, st, path).failure.None? <==>
              DispatchOk(plan.ctx, fc) && AspectFor(plan.ctx, fc, st.aspect).Some? && plan.project.Some?
    ensures var fc := Collect(path, plan.ctx.world);
            DispatchOk(plan.ctx, fc) && AspectFor(plan.ctx, fc, st.aspect).None? ==>
              Patient(plan, st, path).failure == Some(NameError(AspectUnbound))
    ensures var fc := Collect(path, plan.ctx.world);
            DispatchOk(plan.ctx, fc) && AspectFor(plan.ctx, fc, st.aspect).Some? && plan.project.None? ==>
              Patient(plan, st, path).failure == Some(TypeError)
  {
    var fc := Collect(path, plan.ctx.world);
    var d := Dispatch(plan.ctx, fc, st.aspect);
    FinishFailure(plan, st, fc.mrn.value, d);
    DispatchFailure(plan.ctx, fc, st.aspect);
    if d.failure.None? {
      DispatchAspect(plan.ctx, fc, st.aspect);
      assert d.locals.aspect == AspectFor(plan.ctx, fc, st.aspect);
    }
  }

  /**
   * After the dispatch `d`, the patient completes exactly when the dispatch
   * raised nothing, `aspect` is bound and a project was given; otherwise
   * the first of those to fail gives the exception.
   */
  lemma FinishFailure(plan: Plan, st: State, mrn: string, d: Progress)
    ensures var r := Finish(plan, st, mrn, d);
            && (r.failure.None? <==> d.failure.None? && d.locals.aspect.Some? && plan.project.Some?)
            && (d.failure.Some? ==> r.failure == d.failure)
            && (d.failure.None? && d.locals.aspect.None? ==> r.failure == Some(NameError(AspectUnbound)))
            && (d.failure.None? && d.locals.aspect.Some? && plan.project.None? ==> r.failure == Some(TypeError))
            && r.state.aspect == d.locals.aspect
            && (r.failure.None? ==> r.state.destExists)
  {
  }

  /** The events after the dispatch: its calls, then at most one `makedirs`, then at most one save. */
  lemma FinishEvents(plan: Plan, st: State, mrn: string, d: Progress)
    ensures var r := Finish(plan, st, mrn, d);
            && |r.events| >= |d.calls|
            && r.events[..|d.calls|] == CallEvents(d.calls)
            && |r.events| <= |d.calls| + 2
            && (forall i :: |d.calls| <= i < |r.events| ==> !r.events[i].Called?)
            && (r.failure.Some? ==> Saves(r.events) == [])
            && (r.failure.None? ==> plan.project.Some? && Saves(r.events) == [PathJoin(plan.dest, plan.project.value + "_" + mrn)])
            && (r.failure.None? ==>
                  r.events[|r.events| - 1] == Saved(PathJoin(plan.dest, plan.project.value + "_" + mrn), PoolDict(d.locals).value))
            && MadeCount(r.events) <= (if st.destExists then 0 else 1)
            && MadeCount(r.events) == (if d.failure.None? && d.locals.aspect.Some? && !st.destExists then 1 else 0)
            && r.state.destExists == (st.destExists || MadeCount(r.events) == 1)
  {
    FinishTail(plan, st, mrn, d);
    FinishCounts(plan, st, mrn, d);
  }

  /**
   * The saves and `makedirs` calls after the dispatch. `pool_dict` is
   * built before the destination check, so an unbound aspect creates
   * nothing, while a missing project raises only after the destination
   * was created.
   */
  lemma FinishCounts(plan: Plan, st: State, mrn: string, d: Progress)
    ensures var r := Finish(plan, st, mrn, d);
            && (r.failure.Some? ==> Saves(r.events) == [])
            && (r.failure.None? ==> plan.project.Some? && Saves(r.events) == [PathJoin(plan.dest, plan.project.value + "_" + mrn)])
            && MadeCount(r.events) <= (if st.destExists then 0 else 1)
            && MadeCount(r.events) == (if d.failure.None? && d.locals.aspect.Some? && !st.destExists then 1 else 0)
            && r.state.destExists == (st.destExists || MadeCount(r.events) == 1)
  {
    var called := CallEvents(d.calls);
    CallEventsQuiet(d.calls);
    var made: seq<Event> := if st.destExists then [] else [MadeDirs(plan.dest)];
    assert Saves(made) == [] && MadeCount(made) == (if st.destExists then 0 else 1);
    SavesAppend(called, made);
    var r := Finish(plan, st, mrn, d);
    if d.failure.Some? {
      assert r.events == called;
    } else if d.locals.aspect.None? {
      assert PoolDict(d.locals).Err?;
      assert r.events == called;
    } else if plan.project.None? {
      assert r.events == called + made;
    } else {
      var save := [Saved(PathJoin(plan.dest, plan.project.value + "_" + mrn), PoolDict(d.locals).value)];
      assert r.events == called + made + save;
      SavesAppend(called + made, save);
    }
  }

  /**
   * The dispatch's calls come first; after them come at most two events,
   * neither of them a call, the last being the save when the patient completes.
   */
  lemma FinishTail(plan: Plan, st: State, mrn: string, d: Progress)
    ensures var r := Finish(plan, st, mrn, d);
            && |d.calls| <= |r.events| <= |d.calls| + 2
            && r.events[..|d.calls|] == CallEvents(d.calls)
            && (forall i :: |d.calls| <= i < |r.events| ==> !r.events[i].Called?)
            && (r.failure.None? ==>
                  plan.project.Some? && PoolDict(d.locals).Ok? &&
                  r.events[|r.events| - 1] == Saved(PathJoin(plan.dest, plan.project.value + "_" + mrn), PoolDict(d.locals).value))
  {
    var called := CallEvents(d.calls);
    var made: seq<Event> := if st.destExists then [] else [MadeDirs(plan.dest)];
    var r := Finish(plan, st, mrn, d);
    if d.failure.Some? {
      assert r.events == called;
      assert called[..|d.calls|] == called;
    } else if d.locals.aspect.None? {
      assert PoolDict(d.locals).Err?;
      assert r.events == called;
      assert called[..|d.calls|] == called;
    } else if plan.project.None? {
      assert r.events == called + made;
      QuietTail(called, made);
      assert (called + made)[..|d.calls|] == called;
    } else {
      var save := [Saved(PathJoin(plan.dest, plan.project.value + "_" + mrn), PoolDict(d.locals).value)];
      assert r.events == called + (made + save);
      QuietTail(called, made + save);
      assert (called + (made + save))[..|d.calls|] == called;
    }
  }

  /** Events appended after the calls that are not calls themselves. */
  lemma QuietTail(called: seq<Event>, rest: seq<Event>)
    requires forall j :: 0 <= j < |rest| ==> !rest[j].Called?
    ensures forall i :: |called| <= i < |called + rest| ==> !(called + rest)[i].Called?
  {
    forall i | |called| <= i < |called + rest| ensures !(called + rest)[i].Called? {
      assert (called + rest)[i] == rest[i - |called|];
    }
  }

  lemma KeyedAppend(a: seq<Event>, b: seq<Event>)
    requires BundlesWellKeyed(a) && BundlesWellKeyed(b)
    ensures BundlesWellKeyed(a + b)
  {
    forall i | 0 <= i < |a + b| && (a + b)[i].Saved? ensures (a + b)[i].bundle.Keys == BundleKeys {
      if i >= |a| {
        assert (a + b)[i] == b[i - |a|];
      }
    }
  }

  /** Every bundle saved after the dispatch has the six keys. */
  lemma FinishKeys(plan: Plan, st: State, mrn: string, d: Progress)
    ensures BundlesWellKeyed(Finish(plan, st, mrn, d).events)
  {
    var called := CallEvents(d.calls);
    var made: seq<Event> := if st.destExists then [] else [MadeDirs(plan.dest)];
    assert BundlesWellKeyed(called) && BundlesWellKeyed(made);
    KeyedAppend(called, made);
    if d.failure.None? && d.locals.aspect.Some? && plan.project.Some? {
      var save := [Saved(PathJoin(plan.dest, plan.project.value + "_" + mrn), PoolDict(d.locals).value)];
      assert BundlesWellKeyed(save);
      KeyedAppend(called + made, save);
      assert Finish(plan, st, mrn, d).events == called + made + save;
    }
  }

  /**
   * The events of one patient: its calls, then nothing but at most one
   * `makedirs` and its save when it completes. The destination is created
   * exactly when it was missing and the dispatch ended with `aspect`
   * bound, whether or not the save then raises.
   */
  lemma PatientEvents(plan: Plan, st: State, path: string)
    ensures var r := Patient(plan, st, path);
            var d := Dispatch(plan.ctx, Collect(path, plan.ctx.world), st.aspect);
            && |r.events| >= |d.calls|
            && r.events[..|d.calls|] == CallEvents(d.calls)
            && |r.events| <= |d.calls| + 2
            && (forall i :: |d.calls| <= i < |r.events| ==> !r.events[i].Called?)
            && (r.failure.Some? ==> Saves(r.events) == [])
            && (r.failure.None? ==> plan.project.Some? && Saves(r.events) == [Target(plan, path)])
            && MadeCount(r.events) <= (if st.destExists then 0 else 1)
            && MadeCount(r.events) == (if d.failure.None? && d.locals.aspect.Some? && !st.destExists then 1 else 0)
            && r.state.destExists == (st.destExists || MadeCount(r.events) == 1)
            && (r.failure.None? ==> r.state.destExists)
            && BundlesWellKeyed(r.events)
  {
    var fc := Collect(path, plan.ctx.world);
    CollectMrn(path, plan.ctx.world);
    FinishFailure(plan, st, fc.mrn.value, Dispatch(plan.ctx, fc, st.aspect));
    FinishEvents(plan, st, fc.mrn.value, Dispatch(plan.ctx, fc, st.aspect));
    FinishKeys(plan, st, fc.mrn.value, Dispatch(plan.ctx, fc, st.aspect));
  }

  /** A completed patient's bundle, before the dispatch is known: the locals under their keys, and the aspect. */
  lemma FinishBundle(plan: Plan, st: State, mrn: string, d: Progress)
    requires Finish(plan, st, mrn, d).failure.None?
    ensures var r := Finish(plan, st, mrn, d);
            && |r.events| > 0
            && r.events[|r.events| - 1].Saved?
            && r.events[|r.events| - 1].file == PathJoin(plan.dest, plan.project.value + "_" + mrn)
            && var b := r.events[|r.events| - 1].bundle;
            && b.Keys == BundleKeys
            && (forall m :: Name(m) in b && b[Name(m)] == Data(Slot(d.locals, m)))
            && "ASPECT" in b && b["ASPECT"] == Dims(d.locals.aspect.value)
  {
    FinishFailure(plan, st, mrn, d);
    FinishEvents(plan, st, mrn, d);
  }

  /** A dispatch that raised nothing: its locals and its aspect. */
  lemma DispatchComplete(ctx: Context, fc: FileCollect, aspect: Option<Aspect>)
    requires Dispatch(ctx, fc, aspect).failure.None?
    ensures DispatchOk(ctx, fc)
    ensures forall m :: Slot(Dispatch(ctx, fc, aspect).locals, m) ==
              if Present(fc, m) then Volume(Call(ctx, m, fc.path)) else NoData
    ensures Dispatch(ctx, fc, aspect).locals.aspect == AspectFor(ctx, fc, aspect)
  {
    DispatchFailure(ctx, fc, aspect);
    DispatchAspect(ctx, fc, aspect);
    forall m ensures Slot(Dispatch(ctx, fc, aspect).locals, m) == if Present(fc, m) then Volume(Call(ctx, m, fc.path)) else NoData {
      DispatchLocals(ctx, fc, aspect, m);
    }
  }

  /**
   * The last event saves to `target` a bundle with the six keys: each
   * modality's reconstruction when its slot in `fc` is non-empty and `[]`
   * otherwise, and `aspect` under `ASPECT`.
   */
  predicate SavesBundle(ctx: Context, fc: FileCollect, target: string, aspect: Aspect, events: seq<Event>)
    requires Present(fc, RTSTRUCT) ==> Truthy(ctx.contourList)
  {
    && |events| > 0
    && events[|events| - 1].Saved?
    && events[|events| - 1].file == target
    && var b := events[|events| - 1].bundle;
    && b.Keys == BundleKeys
    && (forall m :: Name(m) in b && b[Name(m)] == Data(if Present(fc, m) then Volume(Call(ctx, m, fc.path)) else NoData))
    && "ASPECT" in b && b["ASPECT"] == Dims(aspect)
  }

  /**
   * A completed patient's bundle: each modality's key holds its
   * reconstruction when the slot is non-empty and `[]` otherwise, and
   * `ASPECT` holds the aspect read for the last imaging modality present,
   * or, with none present, the one left by the previous patient. That
   * aspect is also what the next patient starts with.
   */
  lemma PatientBundle(plan: Plan, st: State, path: string)
    requires Patient(plan, st, path).failure.None?
    ensures plan.project.Some?
    ensures Present(Collect(path, plan.ctx.world), RTSTRUCT) ==> Truthy(plan.ctx.contourList)
    ensures AspectFor(plan.ctx, Collect(path, plan.ctx.world), st.aspect).Some?
    ensures SavesBundle(plan.ctx, Collect(path, plan.ctx.world), Target(plan, path),
                        AspectFor(plan.ctx, Collect(path, plan.ctx.world), st.aspect).value,
                        Patient(plan, st, path).events)
    ensures Patient(plan, st, path).state.aspect == AspectFor(plan.ctx, Collect(path, plan.ctx.world), st.aspect)
  {
    var fc := Collect(path, plan.ctx.world);
    var d := Dispatch(plan.ctx, fc, st.aspect);
    CollectMrn(path, plan.ctx.world);
    FinishFailure(plan, st, fc.mrn.value, d);
    FinishBundle(plan, st, fc.mrn.value, d);
    DispatchComplete(plan.ctx, fc, st.aspect);
  }

  /**
   * `for path in order:` with `patient` as the loop body: the folders in
   * order, each starting from the state the one before left, stopping at
   * the first exception.
   */
  function Loop(patient: (State, string) -> Outcome, st: State, order: seq<string>): Outcome
    decreases |order|
  {
    if order == [] then Outcome([], st, None)
    else
      var o := patient(st, order[0]);
      if o.failure.Some? then o
      else
        var rest := Loop(patient, o.state, order[1..]);
        Outcome(o.events + rest.events, rest.state, rest.failure)
  }

  /** The loop body of recon_sorted.py:132-165 under `plan`. */
  function Body(plan: Plan): (State, string) -> Outcome
  {
    (s: State, path: string) => Patient(plan, s, path)
  }

  /**
   * A loop whose body saves exactly its folder's target when it completes,
   * and nothing otherwise, saves the targets in order: all of them when no
   * exception is raised, and those before the failing folder otherwise.
   */
  lemma {:induction false} LoopSaves(patient: (State, string) -> Outcome, target: string -> string, st: State, order: seq<string>)
    requires forall s, p :: Saves(patient(s, p).events) == if patient(s, p).failure.None? then [target(p)] else []
    ensures var saves := Saves(Loop(patient, st, order).events);
            && |saves| <= |order|
            && (forall i :: 0 <= i < |saves| ==> saves[i] == target(order[i]))
            && (Loop(patient, st, order).failure.None? <==> |saves| == |order|)
    decreases |order|
  {
    if order != [] {
      var o := patient(st, order[0]);
      if o.failure.None? {
        var rest := Loop(patient, o.state, order[1..]);
        LoopSaves(patient, target, o.state, order[1..]);
        SavesAppend(o.events, rest.events);
        var saves := Saves(o.events + rest.events);
        assert saves == [target(order[0])] + Saves(rest.events);
        forall i | 1 <= i < |saves| ensures saves[i] == target(order[i]) {
          assert saves[i] == Saves(rest.events)[i - 1];
          assert order[1..][i - 1] == order[i];
        }
      }
    }
  }

  /**
   * Nothing is undone: once the folders `a` are done without an exception,
   * running on through `b` keeps every event of `a` and continues from the
   * state `a` left.
   */
  lemma {:induction false} LoopAppend(patient: (State, string) -> Outcome, st: State, a: seq<string>, b: seq<string>)
    requires Loop(patient, st, a).failure.None?
    ensures var first := Loop(patient, st, a);
            var rest := Loop(patient, first.state, b);
            Loop(patient, st, a + b) == Outcome(first.events + rest.events, rest.state, rest.failure)
    decreases |a|
  {
    if a == [] {
      assert a + b == b;
      assert [] + Loop(patient, st, b).events == Loop(patient, st, b).events;
    } else {
      var o := patient(st, a[0]);
      assert (a + b)[0] == a[0] && (a + b)[1..] == a[1..] + b;
      LoopAppend(patient, o.state, a[1..], b);
      var mid := Loop(patient, o.state, a[1..]);
      var rest := Loop(patient, mid.state, b);
      assert o.events + (mid.events + rest.events) == (o.events + mid.events) + rest.events;
    }
  }

  /**
   * The loop stopped at folder `k`: the folders before it completed, the
   * body raised on `order[k]`, and the events are those of the completed
   * folders followed by the failing body's own.
   */
  predicate StopsAt(patient: (State, string) -> Outcome, st: State, order: seq<string>, k: nat)
    requires k < |order|
  {
    var done := Loop(patient, st, order[..k]);
    var last := patient(done.state, order[k]);
    && done.failure.None?
    && last.failure.Some?
    && Loop(patient, st, order) == Outcome(done.events + last.events, last.state, last.failure)
  }

  /** A loop that raises stopped at some folder, keeping everything done before it. */
  lemma {:induction false} LoopStopsAt(patient: (State, string) -> Outcome, st: State, order: seq<string>)
    requires Loop(patient, st, order).failure.Some?
    ensures exists k :: 0 <= k < |order| && StopsAt(patient, st, order, k)
    decreases |order|
  {
    var o := patient(st, order[0]);
    if o.failure.Some? {
      assert order[..0] == [];
      assert [] + o.events == o.events;
      assert StopsAt(patient, st, order, 0);
    } else {
      LoopStopsAt(patient, o.state, order[1..]);
      var k :| 0 <= k < |order[1..]| && StopsAt(patient, o.state, order[1..], k);
      var done := Loop(patient, o.state, order[1..][..k]);
      var last := patient(done.state, order[1..][k]);
      assert order[..k + 1][0] == order[0] && order[..k + 1][1..] == order[1..][..k];
      assert order[k + 1] == order[1..][k];
      assert o.events + (done.events + last.events) == (o.events + done.events) + last.events;
      assert StopsAt(patient, st, order, k + 1);
    }
  }

  /** `LoopSaves` with each folder's target under `plan`. */
  lemma LoopSavesTo(patient: (State, string) -> Outcome, plan: Plan, st: State, order: seq<string>)
    requires plan.project.Some?
    requires forall s, p :: Saves(patient(s, p).events) == if patient(s, p).failure.None? then [Target(plan, p)] else []
    ensures var saves := Saves(Loop(patient, st, order).events);
            && |saves| <= |order|
            && (forall i :: 0 <= i < |saves| ==> saves[i] == Target(plan, order[i]))
            && (Loop(patient, st, order).failure.None? <==> |saves| == |order|)
  {
    LoopSaves(patient, p => Target(plan, p), st, order);
  }

  /** A loop whose bodies always raise saves nothing and raises on any folder. */
  lemma LoopAlwaysFails(patient: (State, string) -> Outcome, st: State, order: seq<string>)
    requires forall s, p :: patient(s, p).failure.Some? && Saves(patient(s, p).events) == []
    ensures order != [] ==> Loop(patient, st, order).failure.Some?
    ensures Saves(Loop(patient, st, order).events) == []
  {
  }

  /**
   * A loop whose body creates the destination at most once, and only when
   * it is missing, creates it at most once overall, and never when it
   * existed before; bundles keep their six keys.
   */
  lemma {:induction false} LoopEffects(patient: (State, string) -> Outcome, st: State, order: seq<string>)
    requires forall s, p ::
               && MadeCount(patient(s, p).events) <= (if s.destExists then 0 else 1)
               && patient(s, p).state.destExists == (s.destExists || MadeCount(patient(s, p).events) == 1)
               && BundlesWellKeyed(patient(s, p).events)
    ensures MadeCount(Loop(patient, st, order).events) <= (if st.destExists then 0 else 1)
    ensures Loop(patient, st, order).state.destExists == (st.destExists || MadeCount(Loop(patient, st, order).events) == 1)
    ensures BundlesWellKeyed(Loop(patient, st, order).events)
    decreases |order|
  {
    if order != [] {
      var o := patient(st, order[0]);
      if o.failure.None? {
        var rest := Loop(patient, o.state, order[1..]);
        LoopEffects(patient, o.state, order[1..]);
        SavesAppend(o.events, rest.events);
        KeyedAppend(o.events, rest.events);
      }
    }
  }

  /** One patient creates the destination at most once, only when missing, and saves six-key bundles. */
  lemma BodyEffects(plan: Plan)
    ensures forall s, p ::
              && MadeCount(Body(plan)(s, p).events) <= (if s.destExists then 0 else 1)
              && Body(plan)(s, p).state.destExists == (s.destExists || MadeCount(Body(plan)(s, p).events) == 1)
              && BundlesWellKeyed(Body(plan)(s, p).events)
  {
    forall s, p ensures
      && MadeCount(Patient(plan, s, p).events) <= (if s.destExists then 0 else 1)
      && Patient(plan, s, p).state.destExists == (s.destExists || MadeCount(Patient(plan, s, p).events) == 1)
      && BundlesWellKeyed(Patient(plan, s, p).events)
    {
      PatientEvents(plan, s, p);
    }
  }

  /** One patient saves its target when it completes, and nothing otherwise. */
  lemma BodySaves(plan: Plan)
    requires plan.project.Some?
    ensures forall s, p :: Saves(Body(plan)(s, p).events) == if Body(plan)(s, p).failure.None? then [Target(plan, p)] else []
  {
    forall s, p ensures Saves(Patient(plan, s, p).events) == if Patient(plan, s, p).failure.None? then [Target(plan, p)] else [] {
      PatientEvents(plan, s, p);
    }
  }

  /** Without a project name every patient raises before saving. */
  lemma BodyFails(plan: Plan)
    requires plan.project.None?
    ensures forall s, p :: Body(plan)(s, p).failure.Some? && Saves(Body(plan)(s, p).events) == []
  {
    forall s, p ensures Patient(plan, s, p).failure.Some? && Saves(Patient(plan, s, p).events) == [] {
      PatientEvents(plan, s, p);
      PatientOutcome(plan, s, p);
    }
  }

  /**
   * The aspect leaks between patients: when two folders complete one after
   * the other and the second has no MR, CT or PET, the second bundle's
   * `ASPECT` is the first one's.
   */
  lemma AspectCarriesOver(plan: Plan, st: State, first: string, second: string)
    requires Loop(Body(plan), st, [first, second]).failure.None?
    requires LastImaging(Collect(second, plan.ctx.world)).None?
    ensures var r := Patient(plan, st, first);
            var s := Patient(plan, r.state, second);
            && r.failure.None? && s.failure.None?
            && |r.events| > 0 && r.events[|r.events| - 1].Saved? && "ASPECT" in r.events[|r.events| - 1].bundle
            && |s.events| > 0 && s.events[|s.events| - 1].Saved? && "ASPECT" in s.events[|s.events| - 1].bundle
            && s.events[|s.events| - 1].bundle["ASPECT"] == r.events[|r.events| - 1].bundle["ASPECT"]
  {
    var r := Patient(plan, st, first);
    assert [first, second][1..] == [second];
    assert r.failure.None?;
    PatientBundle(plan, st, first);
    var s := Patient(plan, r.state, second);
    assert Loop(Body(plan), r.state, [second]).failure == s.failure;
    PatientBundle(plan, r.state, second);
  }

  /** The command-line options the script reads: `-b`, `-c`, `-d`, `-j`, `-p`. */
  datatype Options = Options(
    baseDir: Option<string>,
    csvFile: Option<string>,
    destDir: Option<string>,
    contourList: Option<string>,
    project: Option<string>)

  /** recon_sorted.py:120-121: an empty or missing destination falls back to the base directory. */
  function DestDir(o: Options): (r: string)
    requires Truthy(o.baseDir)
    ensures Truthy(o.destDir) ==> r == o.destDir.value
    ensures !Truthy(o.destDir) ==> r == o.baseDir.value
    ensures r != ""
  {
    if Truthy(o.destDir) then o.destDir.value else o.baseDir.value
  }

  /**
   * recon_sorted.py:117-129: the base directory check, the recursive
   * listing, the allowlist and the selected patient folders. `open(None)`
   * raises TypeError; a CSV path `open` refuses raises the matching
   * `OSError`.
   */
  function Folders(o: Options, w: World): (r: Result<set<string>, Failure>)
    ensures !Truthy(o.baseDir) ==> r == Err(NameError(BaseMissing))
    ensures Truthy(o.baseDir) && o.csvFile.None? ==> r == Err(TypeError)
    ensures Truthy(o.baseDir) && o.csvFile.Some? && w.open(o.csvFile.value).Some? ==>
              r == Err(OpenFailure(w.open(o.csvFile.value).value, o.csvFile.value))
    ensures (Truthy(o.baseDir) && o.csvFile.Some? && w.open(o.csvFile.value).None? &&
             FilterList(w.csv(o.csvFile.value)).Err?) ==> r == Err(IndexError)
    ensures (Truthy(o.baseDir) && o.csvFile.Some? && w.open(o.csvFile.value).None? &&
             FilterList(w.csv(o.csvFile.value)).Ok?) ==>
              && (r.Ok? <==> forall e :: e in FileTree(w.walk(o.baseDir.value)) ==> '/' in e)
              && (r.Err? ==> r == Err(IndexError))
    ensures r.Ok? ==>
              && Truthy(o.baseDir) && o.csvFile.Some? && w.open(o.csvFile.value).None?
              && FilterList(w.csv(o.csvFile.value)).Ok?
              && r.value == Selected(FileTree(w.walk(o.baseDir.value)), FilterList(w.csv(o.csvFile.value)).value)
  {
    if !Truthy(o.baseDir) then Err(NameError(BaseMissing))
    else
      var tree := FileTree(w.walk(o.baseDir.value));
      match o.csvFile
      case None => Err(TypeError)
      case Some(file) =>
        match w.open(file)
        case Some(e) => Err(OpenFailure(e, file))
        case None =>
          match FilterList(w.csv(file))
          case Err(e) => Err(e)
          case Ok(allow) => PatientFolders(tree, allow)
  }

  /**
   * The selected folders are exactly the parents of the listed entries
   * whose last character is none of `.dcm` and whose parent is named on
   * the allowlist.
   */
  lemma FoldersSelect(o: Options, w: World, x: string)
    requires Folders(o, w).Ok?
    ensures var allow := FilterList(w.csv(o.csvFile.value)).value;
            x in Folders(o, w).value <==>
              exists e :: e in w.walk(o.baseDir.value) && MatchesNotDcmClass(e) && BaseName(Parent(e)) in allow && x == Parent(e)
  {
  }

  /** `order` lists every member of `s` exactly once: what `list(set(...))` yields, in some order. */
  predicate Enumerates(order: seq<string>, s: set<string>)
  {
    && (forall x :: x in order ==> x in s)
    && (forall x :: x in s ==> x in order)
    && (forall i, j :: 0 <= i < j < |order| ==> order[i] != order[j])
  }

  /** The plan the options give once the folders are known. */
  function PlanFor(o: Options, w: World): Plan
    requires Truthy(o.baseDir)
  {
    Plan(Context(w, o.contourList), DestDir(o), o.project)
  }

  /** The whole script, given the order in which `list(set(...))` yields the folders. */
  function Run(o: Options, w: World, order: seq<string>): Outcome
    requires Folders(o, w).Ok? ==> Enumerates(order, Folders(o, w).value)
  {
    match Folders(o, w)
    case Err(e) => Outcome([], State(None, false), Some(e))
    case Ok(_) => Loop(Body(PlanFor(o, w)), State(None, w.pathExists(DestDir(o))), order)
  }

  /**
   * A run that raises nothing saves one bundle for every selected folder,
   * in the order given, each under the destination directory and named
   * `project_mrn`; the destination is created only if it did not exist.
   * Without a project name any selected folder makes the run raise.
   */
  lemma RunSaves(o: Options, w: World, order: seq<string>)
    requires Folders(o, w).Ok? && Enumerates(order, Folders(o, w).value)
    requires Run(o, w, order).failure.None?
    ensures order != [] ==> o.project.Some?
    ensures o.project.Some? ==>
              && |Saves(Run(o, w, order).events)| == |order|
              && (forall i :: 0 <= i < |order| ==> Saves(Run(o, w, order).events)[i] == Target(PlanFor(o, w), order[i]))
              && (forall f :: f in Folders(o, w).value ==> Target(PlanFor(o, w), f) in Saves(Run(o, w, order).events))
    ensures w.pathExists(DestDir(o)) ==> MadeCount(Run(o, w, order).events) == 0
    ensures !w.pathExists(DestDir(o)) && order != [] ==> MadeCount(Run(o, w, order).events) == 1
    ensures MadeCount(Run(o, w, order).events) <= 1
    ensures BundlesWellKeyed(Run(o, w, order).events)
  {
    var plan := PlanFor(o, w);
    var st := State(None, w.pathExists(DestDir(o)));
    assert Run(o, w, order) == Loop(Body(plan), st, order);
    PlanRun(plan, st, order);
    if order != [] {
      LoopMakesFirst(plan, st, order);
      var first := Patient(plan, st, order[0]);
      PatientEvents(plan, st, order[0]);
      FinishFailure(plan, st, Collect(order[0], w).mrn.value, Dispatch(plan.ctx, Collect(order[0], w), st.aspect));
    }
    if o.project.Some? {
      var saves := Saves(Run(o, w, order).events);
      forall f | f in Folders(o, w).value ensures Target(plan, f) in saves {
        var i :| 0 <= i < |order| && order[i] == f;
        assert saves[i] == Target(plan, f);
      }
    }
  }

  /** The loop over `order` under `plan`: the saves in order, and at most one `makedirs`. */
  lemma PlanRun(plan: Plan, st: State, order: seq<string>)
    ensures plan.project.None? && order != [] ==> Loop(Body(plan), st, order).failure.Some?
    ensures plan.project.Some? && Loop(Body(plan), st, order).failure.None? ==>
              && |Saves(Loop(Body(plan), st, order).events)| == |order|
              && forall i :: 0 <= i < |order| ==> Saves(Loop(Body(plan), st, order).events)[i] == Target(plan, order[i])
    ensures MadeCount(Loop(Body(plan), st, order).events) <= (if st.destExists then 0 else 1)
    ensures BundlesWellKeyed(Loop(Body(plan), st, order).events)
  {
    PlanEffects(plan, st, order);
    if plan.project.Some? {
      PlanSaves(plan, st, order);
    } else {
      BodyFails(plan);
      LoopAlwaysFails(Body(plan), st, order);
    }
  }

  lemma PlanEffects(plan: Plan, st: State, order: seq<string>)
    ensures MadeCount(Loop(Body(plan), st, order).events) <= (if st.destExists then 0 else 1)
    ensures BundlesWellKeyed(Loop(Body(plan), st, order).events)
  {
    BodyEffects(plan);
    LoopEffects(Body(plan), st, order);
  }

  lemma PlanSaves(plan: Plan, st: State, order: seq<string>)
    requires plan.project.Some?
    ensures var saves := Saves(Loop(Body(plan), st, order).events);
            && |saves| <= |order|
            && (forall i :: 0 <= i < |saves| ==> saves[i] == Target(plan, order[i]))
            && (Loop(Body(plan), st, order).failure.None? <==> |saves| == |order|)
  {
    BodySaves(plan);
    LoopSavesTo(Body(plan), plan, st, order);
  }

  /**
   * A loop that gets past its first folder made every `makedirs` call that
   * folder made.
   */
  lemma LoopMakesFirst(plan: Plan, st: State, order: seq<string>)
    requires order != []
    requires Patient(plan, st, order[0]).failure.None?
    ensures MadeCount(Loop(Body(plan), st, order).events) >= MadeCount(Patient(plan, st, order[0]).events)
  {
    var o := Patient(plan, st, order[0]);
    var rest := Loop(Body(plan), o.state, order[1..]);
    assert Loop(Body(plan), st, order).events == o.events + rest.events;
    SavesAppend(o.events, rest.events);
  }

  /**
   * `aspect` starts unbound: when the first folder dispatches without an
   * exception but has no MR, CT or PET slot, building `pool_dict` raises
   * NameError, before the destination is created or anything is saved.
   */
  lemma RunFirstWithoutImaging(o: Options, w: World, order: seq<string>)
    requires Folders(o, w).Ok? && Enumerates(order, Folders(o, w).value) && order != []
    requires LastImaging(Collect(order[0], w)).None?
    requires DispatchOk(Context(w, o.contourList), Collect(order[0], w))
    ensures Run(o, w, order).failure == Some(NameError(AspectUnbound))
    ensures Saves(Run(o, w, order).events) == []
    ensures MadeCount(Run(o, w, order).events) == 0
  {
    var plan := PlanFor(o, w);
    var st := State(None, w.pathExists(DestDir(o)));
    assert Run(o, w, order) == Loop(Body(plan), st, order);
    PatientOutcome(plan, st, order[0]);
    PatientEvents(plan, st, order[0]);
    FinishFailure(plan, st, Collect(order[0], w).mrn.value, Dispatch(plan.ctx, Collect(order[0], w), st.aspect));
    assert Loop(Body(plan), st, order) == Patient(plan, st, order[0]);
  }

  /**
   * Without `-p`, a first folder that dispatches and binds `aspect` creates
   * a missing destination and only then raises TypeError, saving nothing.
   */
  lemma RunWithoutProject(o: Options, w: World, order: seq<string>)
    requires Folders(o, w).Ok? && Enumerates(order, Folders(o, w).value) && order != []
    requires o.project.None?
    requires DispatchOk(Context(w, o.contourList), Collect(order[0], w))
    requires AspectFor(Context(w, o.contourList), Collect(order[0], w), None).Some?
    ensures Run(o, w, order).failure == Some(TypeError)
    ensures Saves(Run(o, w, order).events) == []
    ensures MadeCount(Run(o, w, order).events) == (if w.pathExists(DestDir(o)) then 0 else 1)
  {
    var plan := PlanFor(o, w);
    var st := State(None, w.pathExists(DestDir(o)));
    assert Run(o, w, order) == Loop(Body(plan), st, order);
    PatientOutcome(plan, st, order[0]);
    PatientEvents(plan, st, order[0]);
    var fc := Collect(order[0], w);
    DispatchFailure(plan.ctx, fc, None);
    DispatchAspect(plan.ctx, fc, None);
    assert Dispatch(plan.ctx, fc, None).locals.aspect == AspectFor(plan.ctx, fc, None);
    assert Loop(Body(plan), st, order) == Patient(plan, st, order[0]);
  }

  /** A missing base directory stops the script before anything happens. */
  lemma RunWithoutBase(o: Options, w: World, order: seq<string>)
    requires !Truthy(o.baseDir)
    ensures Run(o, w, order).events == []
    ensures Run(o, w, order).failure == Some(NameError(BaseMissing))
  {
  }
}

=== FILE: selection.dfy ===
/**
 * Patient selection: the recursive file listing filtered by the glob
 * character class `[!.dcm]`, the MRN allowlist read from the CSV, and the set of
 * patient folders whose MRN is on the list.
 */
module Selection {
  import opened Common
  import opened Paths
  import opened Disk

  /** The first cell of each row; an empty row (a blank CSV line) raises IndexError. */
  function FirstColumn(rows: seq<seq<string>>): (r: Result<seq<string>, Failure>)
    ensures r.Err? <==> exists i :: 0 <= i < |rows| && rows[i] == []
    ensures r.Err? ==> r.error == IndexError
    ensures r.Ok? ==> |r.value| == |rows| && forall i :: 0 <= i < |rows| ==> r.value[i] == rows[i][0]
  {
    if rows == [] then Ok([])
    else if rows[0] == [] then Err(IndexError)
    else
      match FirstColumn(rows[1..])
      case Err(e) =>
        assert forall i :: 0 < i < |rows| ==> rows[i] == rows[1..][i - 1];
        Err(e)
      case Ok(rest) =>
        assert forall i :: 0 < i < |rows| ==> rows[i] == rows[1..][i - 1];
        Ok([rows[0][0]] + rest)
  }

  /**
   * The allowlist of recon_sorted.py:125-126: the first cell of every CSV
   * row after the header row. Taking the first cell of an empty row, the
   * header included, raises IndexError.
   */
  function FilterList(rows: seq<seq<string>>): (r: Result<seq<string>, Failure>)
    ensures r.Err? <==> exists i :: 0 <= i < |rows| && rows[i] == []
    ensures r.Err? ==> r.error == IndexError
    ensures r.Ok? ==> |r.value| == (if rows == [] then 0 else |rows| - 1)
    ensures r.Ok? ==> forall i :: 0 <= i < |r.value| ==> r.value[i] == rows[i + 1][0]
  {
    match FirstColumn(rows)
    case Err(e) => Err(e)
    case Ok(column) => Ok(if column == [] then [] else column[1..])
  }

  /**
   * The recursive glob of recon_sorted.py:123 over the recursive listing of the base
   * directory: the entries whose last character is none of `.dcm`.
   */
  function FileTree(listing: seq<string>): (r: seq<string>)
    ensures forall e :: e in r <==> e in listing && MatchesNotDcmClass(e)
    ensures |r| <= |listing|
  {
    if listing == [] then []
    else
      var rest := FileTree(listing[1..]);
      assert forall e :: e in listing <==> e == listing[0] || e in listing[1..];
      if MatchesNotDcmClass(listing[0]) then [listing[0]] + rest else rest
  }

  /**
   * The folders the comprehension of recon_sorted.py:128-129 collects: the
   * parent of every entry whose parent's name is on the allowlist.
   */
  function Selected(tree: seq<string>, allow: seq<string>): set<string>
  {
    set e | e in tree && BaseName(Parent(e)) in allow :: Parent(e)
  }

  lemma SelectedCons(tree: seq<string>, allow: seq<string>)
    requires tree != []
    ensures Selected(tree, allow) ==
              (if BaseName(Parent(tree[0])) in allow then {Parent(tree[0])} else {}) + Selected(tree[1..], allow)
  {
    assert forall x :: x in tree <==> x == tree[0] || x in tree[1..];
  }

  /**
   * The folder selection of recon_sorted.py:128-129: the parent folders of
   * the kept entries whose parent's name is on the allowlist. The filter
   * looks up the second-to-last path component, so an entry without a `/`
   * raises IndexError.
   */
  function PatientFolders(tree: seq<string>, allow: seq<string>): (r: Result<set<string>, Failure>)
    ensures r.Err? <==> exists e :: e in tree && '/' !in e
    ensures r.Err? ==> r.error == IndexError
    ensures r.Ok? ==> r.value == Selected(tree, allow)
  {
    if tree == [] then Ok({})
    else
      var e := tree[0];
      SecondToLastIsParentName(e);
      assert forall x :: x in tree <==> x == e || x in tree[1..];
      match SecondToLast(e)
      case None => Err(IndexError)
      case Some(segment) =>
        match PatientFolders(tree[1..], allow)
        case Err(err) => Err(err)
        case Ok(rest) =>
          SelectedCons(tree, allow);
          Ok(if segment in allow then {Parent(e)} + rest else rest)
  }
}

=== FILE: text.dfy ===
/**
 * The string operations the script relies on, with Python's semantics:
 * `str.rfind`, `str.rpartition`, `str.split` with an explicit separator,
 * `str.join`, and `str(n)` for a natural number.
 */
module Text {
  import opened Common

  /** Number of occurrences of `c` in `s`. */
  function Count(s: string, c: char): nat
  {
    multiset(s)[c]
  }

  lemma CountZero(s: string, c: char)
    ensures Count(s, c) == 0 <==> c !in s
  {
    assert c in s <==> c in multiset(s);
  }

  /** `s.rfind(c)`: the index of the last occurrence of `c`, if any. */
  function LastIndexOf(s: string, c: char): (r: Option<nat>)
    ensures r.None? <==> c !in s
    ensures r.Some? ==> r.value < |s| && s[r.value] == c && c !in s[r.value + 1..]
    ensures r.Some? ==> forall j :: r.value < j < |s| ==> s[j] != c
  {
    if |s| == 0 then None
    else if s[|s| - 1] == c then Some(|s| - 1)
    else
      assert s == s[..|s| - 1] + [s[|s| - 1]];
      LastIndexOf(s[..|s| - 1], c)
  }

  /** The three parts of `s.rpartition(c)`. */
  datatype Partition = Partition(head: string, sep: string, tail: string)

  /**
   * `s.rpartition(c)`: split at the last `c`; when `c` does not occur the
   * whole string is the tail and the other two parts are empty.
   */
  function RPartition(s: string, c: char): (r: Partition)
    ensures c !in r.tail
    ensures r.head + r.sep + r.tail == s
    ensures c in s ==> r.sep == [c]
    ensures c !in s ==> r.head == "" && r.sep == "" && r.tail == s
  {
    match LastIndexOf(s, c)
    case None => Partition("", "", s)
    case Some(i) =>
      assert s == s[..i] + [c] + s[i + 1..];
      Partition(s[..i], [c], s[i + 1..])
  }

  /** The last `c` of `head + [c] + tail` is the one in the middle when `tail` has none. */
  lemma LastIndexOfJoin(head: string, c: char, tail: string)
    requires c !in tail
    ensures LastIndexOf(head + [c] + tail, c) == Some(|head|)
  {
    var s := head + [c] + tail;
    assert s[|head|] == c;
    var r := LastIndexOf(s, c);
    var i := r.value;
    assert |head| <= i;
    assert s[|head| + 1..] == tail;
  }

  /**
   * `rpartition` is characterised by its two postconditions: any split of `s`
   * around a `c` with no `c` after it is the one `RPartition` returns.
   */
  lemma RPartitionUnique(s: string, c: char, head: string, tail: string)
    requires head + [c] + tail == s
    requires c !in tail
    ensures RPartition(s, c) == Partition(head, [c], tail)
  {
    LastIndexOfJoin(head, c, tail);
    assert s[..|head|] == head;
    assert s[|head| + 1..] == tail;
  }

  /** `c.join(parts)`. */
  function Join(parts: seq<string>, c: char): (r: string)
    ensures (forall i :: 0 <= i < |parts| ==> c !in parts[i]) && |parts| > 0 ==>
              Count(r, c) == |parts| - 1
  {
    if |parts| == 0 then ""
    else if |parts| == 1 then
      CountZero(parts[0], c);
      parts[0]
    else
      CountZero(parts[|parts| - 1], c);
      Join(parts[..|parts| - 1], c) + [c] + parts[|parts| - 1]
  }

  /**
   * `s.split(c)` with an explicit separator: the pieces between consecutive
   * occurrences of `c`, so there is always one piece more than separators.
   */
  function Split(s: string, c: char): (r: seq<string>)
    ensures |r| == Count(s, c) + 1
    ensures forall i :: 0 <= i < |r| ==> c !in r[i]
    ensures Join(r, c) == s
    decreases |s|
  {
    match LastIndexOf(s, c)
    case None =>
      CountZero(s, c);
      [s]
    case Some(i) =>
      var init := Split(s[..i], c);
      var last := s[i + 1..];
      assert s == s[..i] + [c] + last;
      CountZero(last, c);
      assert (init + [last])[..|init|] == init;
      init + [last]
  }

  /** Splitting what `Join` produced gives the parts back. */
  lemma {:induction false} SplitJoin(parts: seq<string>, c: char)
    requires |parts| > 0
    requires forall i :: 0 <= i < |parts| ==> c !in parts[i]
    ensures Split(Join(parts, c), c) == parts
  {
    if |parts| == 1 {
      assert Join(parts, c) == parts[0];
    } else {
      var init := parts[..|parts| - 1];
      var last := parts[|parts| - 1];
      assert parts == init + [last];
      assert forall i :: 0 <= i < |init| ==> c !in init[i] by {
        forall i | 0 <= i < |init| ensures c !in init[i] {
          assert init[i] == parts[i];
        }
      }
      var j := Join(init, c);
      assert Join(parts, c) == j + [c] + last;
      SplitSnoc(j, c, last);
      SplitJoin(init, c);
    }
  }

  /** Splitting at one more separator adds exactly one piece at the end. */
  lemma SplitSnoc(head: string, c: char, tail: string)
    requires c !in tail
    ensures Split(head + [c] + tail, c) == Split(head, c) + [tail]
  {
    var s := head + [c] + tail;
    LastIndexOfJoin(head, c, tail);
    assert s[..|head|] == head;
    assert s[|head| + 1..] == tail;
  }

  /** The decimal digit for `d`. */
  function Digit(d: nat): (r: char)
    requires d < 10
    ensures '0' <= r <= '9'
    ensures (r as int) - ('0' as int) == d
  {
    (('0' as int) + d) as char
  }

  /** The value of a decimal digit character; 0 for anything else. */
  function DigitValue(ch: char): nat
  {
    if '0' <= ch <= '9' then (ch as int) - ('0' as int) else 0
  }

  /** `str(n)` for a natural number: its decimal digits, no sign, no leading zeros. */
  function NatToString(n: nat): (r: string)
    ensures |r| > 0
    ensures forall i :: 0 <= i < |r| ==> '0' <= r[i] <= '9'
    ensures |r| > 1 ==> r[0] != '0'
  {
    if n < 10 then [Digit(n)]
    else NatToString(n / 10) + [Digit(n % 10)]
  }

  /** `int(s)` for a string of decimal digits. */
  function ParseNat(s: string): nat
  {
    if |s| == 0 then 0
    else 10 * ParseNat(s[..|s| - 1]) + DigitValue(s[|s| - 1])
  }

  /** Printing a count and reading it back gives the count. */
  lemma {:induction false} ParseNatToString(n: nat)
    ensures ParseNat(NatToString(n)) == n
  {
    var r := NatToString(n);
    if n < 10 {
      assert r == [Digit(n)];
      assert r[..0] == [];
    } else {
      var init := NatToString(n / 10);
      assert r == init + [Digit(n % 10)];
      assert r[..|r| - 1] == init;
      ParseNatToString(n / 10);
    }
  }

  /** `s` is a decimal numeral as `str` prints one: digits only, non-empty, no leading zero. */
  predicate Canonical(s: string)
  {
    && |s| > 0
    && (forall i :: 0 <= i < |s| ==> '0' <= s[i] <= '9')
    && (|s| > 1 ==> s[0] != '0')
  }

  /** Digits not starting with `0` denote a positive number. */
  lemma {:induction false} ParseNatPositive(s: string)
    requires |s| > 0 && s[0] != '0'
    requires forall i :: 0 <= i < |s| ==> '0' <= s[i] <= '9'
    ensures ParseNat(s) >= 1
    decreases |s|
  {
    if |s| > 1 {
      var init := s[..|s| - 1];
      assert init[0] == s[0];
      ParseNatPositive(init);
    }
  }

  /**
   * The canonical numerals are exactly the printed naturals: reading one
   * and printing the value gives the same text back.
   */
  lemma {:induction false} CanonicalParse(s: string)
    requires Canonical(s)
    ensures NatToString(ParseNat(s)) == s
    decreases |s|
  {
    var last := s[|s| - 1];
    var d := DigitValue(last);
    assert Digit(d) == last;
    if |s| > 1 {
      var init := s[..|s| - 1];
      assert init[0] == s[0];
      ParseNatPositive(init);
      CanonicalParse(init);
      var n := ParseNat(s);
      assert n == 10 * ParseNat(init) + d && n >= 10;
      assert n / 10 == ParseNat(init) && n % 10 == d;
      assert s == init + [last];
    }
  }

  /** Printed counts never contain a colon, so they can be joined with one. */
  lemma NoColonInNumber(n: nat)
    ensures ':' !in NatToString(n)
  {
    var r := NatToString(n);
    assert forall i :: 0 <= i < |r| ==> r[i] != ':';
  }
}
